=== FILE: README.md ===
# Durable job queue, upload route and sign-in rules — a Dafny model

The application stores photos as assets and publishes them, and the users who own them, as
knowledge assets. Slow work runs in a durable job queue: rows in a job table that a worker
process claims, runs and finishes, retries with exponential backoff, or gives up on. This
project models that core:

- **the worker engine** (`worker.dfy`, properties in `worker_props.dfy`):
  - `backoffSec` and the error truncation;
  - the claim of the earliest due QUEUED job;
  - `finishOK` and `reschedule`;
  - the two handlers with their guards and early exits;
  - the dispatch of `processOne`;
  - the startup recovery of RUNNING jobs;
  - one tick of the main loop.
- **the enqueue helpers** (`enqueue.dfy`): the three helpers and their deduplication on
  (type, subject) over QUEUED and RUNNING rows.
- **the admin jobs page** (`admin_jobs.dfy`): the requeue action, the FAILED-only Requeue
  button and the listing of the 50 latest jobs.
- **the upload route** (`upload.dfy`):
  - the fixed chain of checks and their HTTP statuses;
  - `extForMime` and the storage URLs;
  - the asset and file rows it creates;
  - the chained Pin and Publish jobs.
- **the sign-in callbacks** (`auth.ts`, modelled in `auth.dfy`):
  - `signIn` (email normalisation, the upsert, the conditional CreateUserKA enqueue);
  - `jwt` (the Edge short-circuit and the look-up by id or email);
  - `session`;
  - `authorized`.

**The store.** All tables live in one class, `Schema.Db`: jobs, users, assets, files and one
id counter. Its methods rewrite those fields in place. The database's string keys become
naturals taken from the counter.

**Time and randomness.** Clock readings, the backoff jitter (0..9) and the results of the
outside services are parameters:

- `createKnowledgeAsset`;
- the file read with `ipfsAddBytes`;
- the image decoder;
- the SHA-256 digest and the re-encoded sizes.

**How the methods are specified.** Each state-changing method states its new state through a
pure function or a predicate on the tables before and after:

- `Claimed`, `Settle` and `RecoverAll` in the worker;
- `ProcessedAt` for one processed job, and `OneJobStep` for each step of the tick's trace of
  table states;
- `AfterEnqueue` and `MarkedPending` in the enqueue helpers;
- `Requeued` on the admin page;
- `ChainedJobs` and `ChainedFrom` for the chained jobs of an upload, and `UploadedFiles` for
  its file rows;
- `SignInEffect` for a sign-in.

The lemmas state the properties of those functions: convergence of a failing job to FAILED,
dedup leaving one in-flight row, idempotent recovery, storage URLs that never collide, and
others.

## Model

| member | source | states |
|---|---|---|
| Worker.BackoffSec | src/scripts/worker-jobs.ts:17-21 | the delay exceeds the jitter and is at most 300 s plus the jitter |
| Worker.Truncate | src/scripts/worker-jobs.ts:56 | the stored error is a prefix of the message of at most 1000 characters, the whole message when it fits |
| Worker.EarliestDueExists | src/scripts/worker-jobs.ts:27-30 | whenever some row is QUEUED and due, a first one in (scheduledAt, createdAt) order exists |
| Worker.FindFirstDue | src/scripts/worker-jobs.ts:27-31 | none exactly when no row is QUEUED with scheduledAt <= now; otherwise a due row that no due row precedes |
| Worker.ClaimIfQueued | src/scripts/worker-jobs.ts:33-37 | the conditional update takes the row only when it is present and still QUEUED: RUNNING, startedAt = now, attempts + 1; otherwise nothing changes |
| Worker.ClaimNextJob | src/scripts/worker-jobs.ts:24-41 | returns none and changes nothing exactly when no row is due; otherwise claims the first due row and returns its new state |
| Worker.FinishOK | src/scripts/worker-jobs.ts:43-48 | the row becomes DONE with finishedAt = now and no error; nothing else changes |
| Worker.Reschedule | src/scripts/worker-jobs.ts:50-61 | attempts >= maxAttempts gives FAILED with finishedAt = now and scheduledAt kept; otherwise QUEUED, finishedAt cleared, due after the backoff in ms; the error is the truncated message |
| Worker.CreateUserKAStep | src/scripts/worker-jobs.ts:65-86 | the handler never adds or removes users, never changes email or role, changes nothing when it throws, and touches only the subject user |
| Worker.ProcessCreateUserKA | src/scripts/worker-jobs.ts:65-86 | the user table afterwards and the outcome are those of CreateUserKAStep |
| Worker.PinStep | src/scripts/worker-jobs.ts:89-118 | the handler keeps the asset keys, changes nothing when it throws, touches only the subject asset and its CREDENTIALED row, and adds a file row only for that asset |
| Worker.ProcessPinAssetToIPFS | src/scripts/worker-jobs.ts:89-118 | the asset and file tables afterwards and the outcome are those of PinStep |
| Worker.Dispatch | src/scripts/worker-jobs.ts:129-139 | no user or asset is added or removed and emails are kept; any type other than the two handled ones throws "Unknown job type: <type>" and changes nothing |
| Worker.Settle | src/scripts/worker-jobs.ts:140-146 | after recording the outcome the row is never RUNNING, is DONE exactly when the handler completed, and keeps its counters, type, subject and parent |
| Worker.RunClaimed | src/scripts/worker-jobs.ts:129-146 | the handler's effects are those of Dispatch, and the claimed row is settled with its own counters: DONE on completion, rescheduled on an error |
| Worker.ProcessOne | src/scripts/worker-jobs.ts:122-148 | returns true exactly when a row was due; then the tables are ProcessedAt of a first due row: claimed, dispatched and settled; otherwise nothing changes |
| Worker.JobStepTouchesOneRow | src/scripts/worker-jobs.ts:122-148 | one processOne changes one row of the job table: that row gains exactly one attempt and is not left RUNNING, the others and the keys are unchanged |
| Worker.TickStep | src/scripts/worker-jobs.ts:195-196 | one turn of the tick's loop: true exactly when a row was due, and then the tables moved by one OneJobStep; otherwise nothing changed |
| Worker.RunKeeps | src/scripts/worker-jobs.ts:191-198 | along any run of processOne steps the keys stay the same, no row becomes RUNNING and no attempt count decreases |
| Worker.RecoverRunningJobs | src/scripts/worker-jobs.ts:157-164 | every RUNNING row becomes QUEUED with no startedAt, other rows are unchanged, and the count is the number of RUNNING rows |
| Worker.RunTick | src/scripts/worker-jobs.ts:191-198 | returns the number of jobs run, at most maxPerTick, with a trace of the tables from before the tick to after it in which each step is one successful processOne on a first due row (IsRun); fewer than maxPerTick only when the next claim found no due row; keys are kept, no row becomes RUNNING that was not RUNNING before, and attempts never decrease |
| WorkerProps.BackoffMonotone | src/scripts/worker-jobs.ts:17-21 | for the same jitter, more attempts never give a shorter delay |
| WorkerProps.BackoffSaturates | src/scripts/worker-jobs.ts:18 | from 9 attempts on the delay is 300 s plus the jitter, so between 300 and 309 s |
| WorkerProps.BackoffUncapped | src/scripts/worker-jobs.ts:18 | up to 8 attempts the delay is exactly 2^attempts s plus the jitter |
| WorkerProps.AlwaysFailingJobExhaustsBudget | src/scripts/worker-jobs.ts:50-61 | an always-failing job gains one attempt per cycle and stays QUEUED until attempts reach maxAttempts; that cycle leaves it FAILED with the truncated error |
| WorkerProps.FreshJobFailsAfterMaxAttempts | src/scripts/worker-jobs.ts:127-146 | a fresh job whose handler always throws is FAILED after exactly maxAttempts claims, with attempts = maxAttempts, and QUEUED before that |
| WorkerProps.UnhandledTypeAlwaysFails | src/scripts/worker-jobs.ts:137-138 | a PublishAssetKA job, or any type without a handler, always fails without side effects and follows the retry path |
| WorkerProps.FirstAttemptSuccess | src/scripts/worker-jobs.ts:35-46 | a handler that completes on the first claim leaves the job DONE, with one attempt, finishedAt set and no error |
| WorkerProps.RetryKeepsStartedAt | src/scripts/worker-jobs.ts:52-59 | a retried job keeps the start time of its failed attempt, has no finishedAt and is due after the backoff |
| WorkerProps.RecoverAllEffect | src/scripts/worker-jobs.ts:158-161 | recovery keeps all keys and counters, rewrites exactly the RUNNING rows and leaves none RUNNING |
| WorkerProps.RecoverAllIdempotent | src/scripts/worker-jobs.ts:158-161 | recovering twice has the effect of recovering once |
| WorkerProps.RecoverAllNoRunningIsNoop | src/scripts/worker-jobs.ts:158-161 | with no RUNNING row recovery changes nothing |
| WorkerProps.CreateUserKAIdempotent | src/scripts/worker-jobs.ts:72-75 | once CreateUserKA has completed for a user with a non-empty UAL, running it again completes without changing any user, whatever the publication would answer |
| WorkerProps.EmptyUalRepublishes | src/scripts/worker-jobs.ts:72-83 | a publication answering an empty UAL completes the job but stores a falsy UAL, so the next run publishes again and throws or stores as that publication answers |
| WorkerProps.PinIdempotent | src/scripts/worker-jobs.ts:99 | once an asset is pinned with a non-empty CID, PinAssetToIPFS completes again without changing anything |
| WorkerProps.EmptyCidRepins | src/scripts/worker-jobs.ts:99-115 | a pin answering an empty CID completes the job but stores a falsy CID, so the next run pins again and throws or stores as that pin answers |
| WorkerProps.FailedCreateUserKAKeepsPending | src/scripts/worker-jobs.ts:77-83 | a CreateUserKA run that throws leaves every user's kaPending as it was |
| WorkerProps.CreateUserKAStepEffect | src/scripts/worker-jobs.ts:65-86 | a missing subject or user throws its message; the run completes exactly when the user exists and has a UAL or the publication succeeds, and then the user is not pending, has no error, and has the old UAL or the published one |
| WorkerProps.PinStepEffect | src/scripts/worker-jobs.ts:89-118 | a missing subject or asset throws its message; an asset with a CID completes with no change; otherwise it completes exactly when the original has a URL and the pin succeeds, and then the asset has the CID and PUBLISHED with every other column kept, and the CREDENTIALED row has the uri, created with the original's mime when absent |
| WorkerProps.ClaimIgnoresParent | src/scripts/worker-jobs.ts:27-30 | changing a row's parentJobId changes no claim decision: there is no dependency gate |
| WorkerProps.DispatchIgnoresParent | src/scripts/worker-jobs.ts:129-139 | a job runs the same way whatever its parent |
| Enqueue.FindInFlight | src/lib/jobs.ts:5-12 | none exactly when no QUEUED or RUNNING row has the type and subject; otherwise such a row |
| Enqueue.CreateJob | src/lib/jobs.ts:15-23 | inserts a QUEUED row with empty payload, maxAttempts 5 and no attempts under a never-used key; nothing else changes |
| Enqueue.EnqueueDeduped | src/lib/jobs.ts:32-53 | the table becomes AfterEnqueue; the returned row is in flight for (type, subject), the existing one if there was one, else the new one |
| Enqueue.EnqueueCreateUserKA | src/lib/jobs.ts:3-30 | dedup on (CreateUserKA, user), then the user is marked pending since now with no error whether or not a row was inserted; the key counter moves on only when a row was inserted |
| Enqueue.EnqueuePinAssetToIPFS | src/lib/jobs.ts:32-54 | dedup on (PinAssetToIPFS, asset); returns the in-flight row's id, new only when there was none |
| Enqueue.EnqueuePublishAssetKA | src/lib/jobs.ts:56-78 | dedup on (PublishAssetKA, asset); a new row carries the given parent; an existing row is returned untouched |
| Enqueue.EnqueueLeavesOneInFlight | src/lib/jobs.ts:56-78 | after an enqueue there is exactly one in-flight row for the key if there was at most one before |
| Enqueue.EnqueueTwiceIsOnce | src/lib/jobs.ts:32-54 | a second enqueue of the same key changes nothing, whatever parent and time it passes |
| Enqueue.TwoCallsOneInFlight | src/lib/jobs.ts:32-54 | two successive calls on a key with no in-flight row leave exactly one in-flight row |
| Enqueue.TerminalRowsDoNotBlock | src/lib/jobs.ts:8 | DONE and FAILED rows of the key do not block: a new QUEUED row is inserted |
| Enqueue.OtherTypesDoNotBlock | src/lib/jobs.ts:58-65 | the key includes the type: the enqueue decides from the rows of its own type alone, whatever rows of other types hold |
| AdminJobs.ShowsRequeueButton | src/app/admin/jobs/page.tsx:111 | the button appears only on rows that are neither RUNNING nor DONE and that no claim would ever pick |
| AdminJobs.RequeueJob | src/app/admin/jobs/page.tsx:44-58 | empty id: no change; missing row: record-not-found and no change; otherwise QUEUED, due now, no error or times, with attempts, budget, type, subject, payload and parent kept |
| AdminJobs.RequeuedIsImmediatelyDue | src/app/admin/jobs/page.tsx:50-56 | a requeued row is due at once and is the next claim when no other row is due |
| AdminJobs.ExhaustedRequeueFailsAgain | src/app/admin/jobs/page.tsx:50-56 | attempts are not reset, so a row requeued with its budget spent is FAILED after its next failed run |
| AdminJobs.RequeueOfRunningRowAllowsSecondClaim | src/app/admin/jobs/page.tsx:111-115 | the button is not shown on a RUNNING row, yet the action requeues it and a claim may take it again |
| AdminJobs.NewestExists | src/app/admin/jobs/page.tsx:24-26 | every non-empty set of rows has a newest row by createdAt |
| AdminJobs.TakeNewestKeepsListing | src/app/admin/jobs/page.tsx:24-26 | taking a newest remaining row keeps the taken rows distinct and newest first, with no remaining row newer than a taken one |
| AdminJobs.FinishedSelectionIsListing | src/app/admin/jobs/page.tsx:24-26 | a selection stopped at the limit or with no row left is the page's listing |
| AdminJobs.ListLatestJobs | src/app/admin/jobs/page.tsx:24-41 | lists min(50, rows) distinct rows, newest first, with no omitted row newer than a listed one |
| Upload.Validate | src/app/api/assets/upload/route.ts:21-66 | no session user gives 401 first; no usable file gives 400 after the preflight; the request is accepted, with the user, the type and the size the route checked, exactly when it passes every check: preflight, file present, allowed type, size <= 20 MiB, decodable, both dimensions in 1..12000 |
| Upload.PreflightPrecedesForm | src/app/api/assets/upload/route.ts:27-31 | a Content-Length over 20 MiB + 10 KiB gives 413 whatever the form holds |
| Upload.TypeCheckPrecedesSize | src/app/api/assets/upload/route.ts:44-51 | a disallowed type gives 415 even for an oversized file; a missing type is refused as application/octet-stream |
| Upload.DeclaredSizeDecides | src/app/api/assets/upload/route.ts:45-54 | a declared size is what is checked: over 20 MiB gives 413 whatever the byte length, within it passes the size check, and it is the accepted size |
| Upload.SizeFallsBackToBytes | src/app/api/assets/upload/route.ts:45-54 | without a declared size the byte length is checked: over 20 MiB gives 413 |
| Upload.ImageChecksAreLast | src/app/api/assets/upload/route.ts:56-66 | an undecodable image or a missing dimension is invalid data, oversized dimensions are refused; both 422 |
| Upload.ExtForMime | src/app/api/assets/upload/route.ts:137-144 | the extension is non-empty exactly for the three allowed types and always starts with a dot |
| Upload.ExtForMimeInjective | src/app/api/assets/upload/route.ts:137-144 | different allowed types get different extensions |
| Upload.IdText | src/app/api/assets/upload/route.ts:89 | an id is written as a non-empty string of decimal digits |
| Upload.IdTextInjective | src/app/api/assets/upload/route.ts:89 | different ids are written differently |
| Upload.OriginalUrlShape | src/app/api/assets/upload/route.ts:88-90 | the original's URL lies under /uploads/ and ends with the extension of its type |
| Upload.ThumbUrlShape | src/app/api/assets/upload/route.ts:103-104 | the thumbnail's URL lies under /uploads/ and ends with /thumb.webp |
| Upload.OriginalUrlsDistinct | src/app/api/assets/upload/route.ts:88-90 | two originals share a URL only when they belong to the same asset and have the same extension |
| Upload.ThumbUrlsDistinct | src/app/api/assets/upload/route.ts:103-104 | two assets never share a thumbnail URL |
| Upload.OriginalIsNeverThumb | src/app/api/assets/upload/route.ts:88-104 | no original, of any asset, has the URL of a thumbnail |
| Upload.CreateChainedJobsForAssetUpload | src/app/api/assets/upload/route.ts:130-133 | the job table becomes ChainedJobs: the deduplicated Pin enqueue, then the deduplicated Publish enqueue whose parent is the returned Pin row; both are then in flight, existing rows are untouched, and the key counter is ChainedNextId, past the keys the inserts took |
| Upload.ChainOnFreshAsset | src/app/api/assets/upload/route.ts:130-133 | for an asset with no in-flight Pin or Publish job the chain adds exactly a Pin row and a Publish row under the next two keys, the Publish row's parent being the Pin row |
| Upload.ChainKeepsExistingRows | src/app/api/assets/upload/route.ts:130-133 | the chain keeps every existing row, adds rows only under the next two keys, leaves a Pin and a Publish job in flight, and any Publish row it adds points to an in-flight Pin row of the asset |
| Upload.CreateAsset | src/app/api/assets/upload/route.ts:72-83 | the asset row is inserted under a key never handed out before; nothing else changes |
| Upload.CreateFileRows | src/app/api/assets/upload/route.ts:108-113 | the ORIGINAL row (original URL, the type, the re-encoded size) and the THUMB row (thumbnail URL, image/webp, its size) are stored for the asset |
| Upload.StoreUpload | src/app/api/assets/upload/route.ts:68-127 | the asset row, then, unless a step throws, the file rows and the ChainedJobs table, answering with the URLs; a throw answers an error and keeps what was written; the key counter is past exactly the keys taken |
| Upload.Post | src/app/api/assets/upload/route.ts:21-128 | a rejected request changes nothing; an accepted one creates the UPLOADED asset, then, unless a later step throws, the ORIGINAL and THUMB rows and the chained jobs, answering with their URLs; a throw before the file rows or before the jobs answers an error and leaves the asset (and the file rows) without jobs; the key counter is past exactly the keys taken |
| Auth.TrimStart | src/auth.ts:30 | removes exactly the leading white space |
| Auth.TrimEnd | src/auth.ts:30 | removes exactly the trailing white space |
| Auth.Trim | src/auth.ts:30 | the input is white space, then the result, then white space, and the result has no white space at either end |
| Auth.TrimIdempotent | src/auth.ts:30 | trimming twice is trimming once |
| Auth.TrimIgnoresOuterSpace | src/auth.ts:30 | white space around a string does not survive the trim |
| Auth.ToLower | src/auth.ts:30 | lowercases the ASCII letters and keeps the length |
| Auth.NormalizeEmail | src/auth.ts:30-31 | none exactly when the email is missing or all white space; a present result is non-empty, has no upper-case letter and nothing to trim |
| Auth.LowerTrimFacts | src/auth.ts:30-31 | lowercasing then trimming leaves no upper-case letter, and leaves nothing exactly when the input is all white space |
| Auth.NormalizeEmailIdempotent | src/auth.ts:30 | a normalised email normalises to itself |
| Auth.CaseAndSpaceInsensitive | src/auth.ts:30 | addresses that differ in case or surrounding white space are normalised alike |
| Auth.FindUserByEmail | src/auth.ts:33-38 | finds the user with that email, or none exactly when no user has it |
| Auth.UpsertUser | src/auth.ts:33-38 | the existing user is returned unchanged, or a new USER row with defaults is created under a new key; emails stay unique |
| Auth.SignInUser | src/auth.ts:33-49 | SignInEffect: the upsert, then a CreateUserKA job enqueued and the user marked pending exactly when the user has no UAL, is not pending and the enqueue does not throw; no other row changes, and the key counter is past exactly the keys the inserts took |
| Auth.SignIn | src/auth.ts:28-51 | true exactly for provider google with a normalised email; then the tables change as SignInEffect says for that email; false changes nothing |
| Auth.SecondSignInChangesNothing | src/auth.ts:33-49 | signing in again with the same email after a sign-in whose enqueue did not throw finds the same user and changes nothing, the key counter included |
| Auth.NewUserIsEnqueued | src/auth.ts:36-40 | a first sign-in always enqueues |
| Auth.PendingUserIsNotReenqueued | src/auth.ts:40 | while the user is pending no second job is enqueued |
| Auth.CompletedUserIsNotReenqueued | src/auth.ts:40 | once CreateUserKA has completed with a UAL the user is never enqueued again |
| Auth.FailedUserStaysBlocked | src/auth.ts:40-49 | a pending user whose CreateUserKA run throws, even on its last attempt, stays pending and is never enqueued again |
| Auth.Jwt | src/auth.ts:54-80 | on Edge the token is unchanged; otherwise id, role and email come from the user named by sub, or else id and role from the user with the normalised email, and are left as they were when no user matches |
| Auth.JwtFindsSignedInUserByEmail | src/auth.ts:69-73 | a token carrying the email sign-in stored matches that user |
| Auth.SessionCallback | src/auth.ts:82-88 | with a session user, id and role are copied from the token when present there and kept otherwise |
| Auth.Authorized | src/auth.ts:91-96 | the ADMIN role may open every path, every path shorter than /admin is open, and a refusal happens only for a non-admin on a path starting with /admin |
| Auth.AdminPrefixRequiresAdmin | src/auth.ts:91-96 | every path beginning with /admin, /admin-tools included, is open exactly to the ADMIN role |
| Auth.OtherPathsAreOpen | src/auth.ts:93 | any other path is open to everyone |
| Auth.PrefixIsExact | src/auth.ts:93 | the test is case-sensitive and anchored at the start: a path differing from /admin in any of its first six characters, such as /Admin or /api/admin, is open |

## Left out

- Row ids are naturals from one counter rather than database-generated strings. In `Auth.Jwt` the token's `sub` is taken to be such an id or absent. A sub that names no user behaves like a missing row.
- Enqueue.EnqueueDeduped, Enqueue.EnqueueCreateUserKA, Enqueue.EnqueuePinAssetToIPFS, Enqueue.EnqueuePublishAssetKA: each helper runs `findFirst` and then `create` with no transaction and no unique key. Two calls at the same moment, such as two sign-ins, can both find nothing and insert two in-flight rows. The deduplication lemmas `Enqueue.EnqueueLeavesOneInFlight` and `Enqueue.TwoCallsOneInFlight` hold only for calls made one after another.
- Several worker processes running at once are not modelled. The claim is one atomic step, as its transaction makes it. The lost-race branch is kept in `Worker.ClaimIfQueued`, but a single process never reaches it.
- Signal handling, `shuttingDown`, the idle sleep and the outer endless loop of `main` are not modelled. `Worker.RunTick` models one tick, and its `maxPerTick` stands for the environment setting.
- Worker.RunTick: `maxPerTick` is a natural. `Number(process.env.WORKER_MAX_JOBS_PER_TICK ?? 1)` can be NaN, which runs no job, or fractional, where "2.5" runs 3 jobs; neither is modelled.
- Worker.Truncate: counts Unicode scalar values, while `slice(0, 1000)` counts UTF-16 code units. A message with characters outside the Basic Multilingual Plane is kept longer by the model than by the source, and the source can cut such a character in half.
- Worker.ClaimIfQueued: the claim takes one clock reading, `claimAt`, for both the due test and `startedAt`. The source reads the clock once for the query and again for `startedAt`.
- Console logging and the `updatedAt` column are not modelled.
- The schema defaults are not in the source. The model assumes a new job has 0 attempts and a `scheduledAt` equal to its creation time, and a new user has role USER, no UAL and is not pending.
- `createKnowledgeAsset`, the disk read with `ipfsAddBytes`, the image decoder, the SHA-256 digest, `reencodeSameFormat`, the thumbnail encoder and `saveFile` are not modelled. They enter only through their results: Success or Failure values, dimensions, a hex digest and byte lengths.
- The message of a thrown error is taken as given. `e?.message ?? String(e)` is not modelled.
- The pin handler's disk path computation is not modelled.
- `Upload.Post` does not cover a `title` form value that is not a string.
- Upload.Post: a throw inside the chain, after the Pin enqueue and before the Publish enqueue, is not modelled; such an upload keeps its Pin job but gets no Publish job. Throws from `auth()`, `formData()` and `file.arrayBuffer()`, and from `prisma.asset.create` itself, are not modelled either. Each writes nothing and answers 500.
- `Upload.Post` does not model the response's constant `ok` and `status` fields.
- Auth.ToLower: only ASCII letters are lowercased; JavaScript's `toLowerCase` folds all Unicode letters.
- Auth.SignInUser: a throwing enqueue is modelled as one that changed nothing. The source could throw after inserting the job but before marking the user pending.
- The `content` that `signIn` builds is not modelled. The enqueue helper takes only the user id, and the job's payload is always `{}`.
- NextAuth itself, the Google provider configuration and the secret are not modelled.
- The `trigger` and `account` arguments of `jwt` are unused there and are not modelled.
- The same requeue action is also defined in the admin cards. `AdminJobs.RequeueJob` stands for all of them.
- `Worker.FinishOK` and `Worker.Reschedule` require that the row exists. An update of a missing row would throw, but these are only called on the row that was just claimed.

=== FILE: admin_jobs.dfy ===
/**
  The operator's jobs page: the listing of the latest jobs, the rule that shows the Requeue
  button, and the requeue server action. The same action appears in the admin jobs card and
  the admin card; this one model stands for all three.
 */
module AdminJobs {
  import opened Wrappers
  import opened Schema
  import Worker
  import WorkerProps

  /** The page shows at most this many rows. */
  const LIST_LIMIT := 50

  /* ------------------------ requeue ------------------------ */

  /** The row after a requeue: QUEUED, due now, with no error and no start or finish time. */
  function Requeued(j: Job, now: Time): Job
  {
    j.(status := Queued, error := None, scheduledAt := now, startedAt := None, finishedAt := None)
  }

  /** How the server action ends: an empty form id returns at once; an update of a missing
      row throws (record not found); otherwise the row is rewritten. */
  datatype RequeueOutcome = EmptyId | RecordNotFound | RowRequeued

  /** requeueJob. `formId` is the form's id field, None when it is missing or empty. The
      action does not look at the row's current status. */
  method RequeueJob(db: Db, formId: Option<Id>, now: Time) returns (r: RequeueOutcome)
    requires db.Valid()
    modifies db`jobs
    ensures db.Valid()
    ensures formId.None? ==> r == EmptyId && db.jobs == old(db.jobs)
    ensures formId.Some? && formId.value !in old(db.jobs) ==> r == RecordNotFound && db.jobs == old(db.jobs)
    ensures formId.Some? && formId.value in old(db.jobs) ==>
              && r == RowRequeued
              && db.jobs == old(db.jobs)[formId.value := Requeued(old(db.jobs)[formId.value], now)]
    ensures r == RowRequeued ==>
              var id := formId.value;
              var was := old(db.jobs)[id];
              && db.jobs[id].status == Queued && db.jobs[id].error == None
              && db.jobs[id].scheduledAt == now && db.jobs[id].startedAt == None && db.jobs[id].finishedAt == None
              && db.jobs[id].attempts == was.attempts && db.jobs[id].maxAttempts == was.maxAttempts
              && db.jobs[id].jobType == was.jobType && db.jobs[id].subjectId == was.subjectId
              && db.jobs[id].payload == was.payload && db.jobs[id].parentJobId == was.parentJobId
  {
    if formId.None? {
      return EmptyId;
    }
    var id := formId.value;
    if id !in db.jobs {
      return RecordNotFound;
    }
    db.jobs := db.jobs[id := Requeued(db.jobs[id], now)];
    r := RowRequeued;
  }

  /** The page offers the Requeue button on FAILED rows only. */
  predicate ShowsRequeueButton(j: Job)
    ensures ShowsRequeueButton(j) ==> j.status != Running && j.status != Done
    ensures ShowsRequeueButton(j) ==> forall now :: !Worker.Due(j, now)
  {
    j.status == Failed
  }

  /** A requeued row is due at once: a claim at the requeue time considers it, and picks it
      when no other row is due then. */
  lemma RequeuedIsImmediatelyDue(jobs: map<Id, Job>, id: Id, now: Time)
    requires id in jobs
    ensures var after := jobs[id := Requeued(jobs[id], now)];
            && Worker.HasDue(after, now)
            && ((forall k :: k in jobs && k != id ==> !Worker.Due(jobs[k], now)) ==> Worker.IsNextCandidate(after, now, id))
  {
    var after := jobs[id := Requeued(jobs[id], now)];
    assert Worker.Due(after[id], now);
  }

  /** Requeue does not reset attempts, so a row requeued with its budget spent is FAILED
      again after its next failed run. */
  lemma ExhaustedRequeueFailsAgain(j: Job, now: Time, e: Worker.External, msg: string)
    requires j.attempts >= j.maxAttempts
    ensures WorkerProps.FailCycle(Requeued(j, now), e, msg).status == Failed
    ensures WorkerProps.FailCycle(Requeued(j, now), e, msg).attempts == j.attempts + 1
  {
  }

  /** The FAILED-only rule lives in the page alone: the action also requeues a RUNNING row,
      which a claim can then take a second time while its first run is still going. */
  lemma RequeueOfRunningRowAllowsSecondClaim(jobs: map<Id, Job>, id: Id, now: Time)
    requires id in jobs && jobs[id].status == Running
    requires forall k :: k in jobs && k != id ==> !Worker.Due(jobs[k], now)
    ensures !ShowsRequeueButton(jobs[id])
    ensures Worker.IsNextCandidate(jobs[id := Requeued(jobs[id], now)], now, id)
  {
    RequeuedIsImmediatelyDue(jobs, id, now);
  }

  /* ------------------------ the listing ------------------------ */

  /** `n` is a newest row (greatest createdAt) among `ids`. */
  predicate NewestIn(jobs: map<Id, Job>, ids: set<Id>, n: Id)
  {
    n in ids && n in jobs && forall k :: k in ids && k in jobs ==> jobs[k].createdAt <= jobs[n].createdAt
  }

  lemma {:induction false} NewestExists(jobs: map<Id, Job>, ids: set<Id>)
    requires ids != {} && ids <= jobs.Keys
    ensures exists n :: NewestIn(jobs, ids, n)
    decreases ids
  {
    var d :| d in ids;
    var rest := ids - {d};
    if rest == {} {
      assert ids == {d};
      assert NewestIn(jobs, ids, d);
    } else {
      NewestExists(jobs, rest);
      var n :| NewestIn(jobs, rest, n);
      if jobs[d].createdAt <= jobs[n].createdAt {
        assert NewestIn(jobs, ids, n);
      } else {
        assert NewestIn(jobs, ids, d);
      }
    }
  }

  /** The result of findMany ordered by createdAt descending, taking `limit` rows: as many
      rows as fit, distinct, newest first, and no row left out is newer than one shown. */
  predicate IsLatestListing(jobs: map<Id, Job>, rows: seq<Id>, limit: nat)
  {
    && |rows| == Worker.Min(limit, |jobs.Keys|)
    && (forall i :: 0 <= i < |rows| ==> rows[i] in jobs)
    && (forall i, k :: 0 <= i < k < |rows| ==> rows[i] != rows[k])
    && (forall i, k :: 0 <= i < k < |rows| && rows[i] in jobs && rows[k] in jobs ==>
          jobs[rows[k]].createdAt <= jobs[rows[i]].createdAt)
    && (forall id, i :: id in jobs && id !in rows && 0 <= i < |rows| && rows[i] in jobs ==>
          jobs[id].createdAt <= jobs[rows[i]].createdAt)
  }

  /** The state of the selection after some steps: `rows` are the ids taken so far, newest
      first, and `remaining` the ids not yet taken, none newer than a taken one. */
  predicate ListingSoFar(jobs: map<Id, Job>, rows: seq<Id>, remaining: set<Id>)
  {
    && remaining <= jobs.Keys
    && |rows| + |remaining| == |jobs.Keys|
    && (forall i :: 0 <= i < |rows| ==> rows[i] in jobs && rows[i] !in remaining)
    && (forall id :: id in jobs && id !in remaining ==> id in rows)
    && (forall i, k :: 0 <= i < k < |rows| ==> rows[i] != rows[k])
    && (forall i, k :: 0 <= i < k < |rows| && rows[i] in jobs && rows[k] in jobs ==>
          jobs[rows[k]].createdAt <= jobs[rows[i]].createdAt)
    && (forall id, i :: id in remaining && 0 <= i < |rows| && rows[i] in jobs ==>
          jobs[id].createdAt <= jobs[rows[i]].createdAt)
  }

  /** Taking a newest remaining row keeps the selection's invariant. */
  lemma TakeNewestKeepsListing(jobs: map<Id, Job>, rows: seq<Id>, remaining: set<Id>, n: Id)
    requires ListingSoFar(jobs, rows, remaining)
    requires NewestIn(jobs, remaining, n)
    ensures ListingSoFar(jobs, rows + [n], remaining - {n})
  {
    var rows', remaining' := rows + [n], remaining - {n};
    assert |remaining'| == |remaining| - 1;
    forall id | id in jobs && id !in remaining'
      ensures id in rows'
    {
      if id != n {
        assert id !in remaining;
      }
      assert rows'[|rows|] == n;
    }
  }

  /** The selection stopped at the limit or with nothing left is the page's listing. */
  lemma FinishedSelectionIsListing(jobs: map<Id, Job>, rows: seq<Id>, remaining: set<Id>, limit: nat)
    requires ListingSoFar(jobs, rows, remaining)
    requires |rows| <= limit && (|rows| == limit || remaining == {})
    ensures IsLatestListing(jobs, rows, limit)
  {
  }

  /** The page's query, evaluated by repeatedly taking a newest row not yet listed. */
  method ListLatestJobs(db: Db) returns (rows: seq<Id>)
    ensures IsLatestListing(db.jobs, rows, LIST_LIMIT)
  {
    rows := [];
    var remaining := db.jobs.Keys;
    while |rows| < LIST_LIMIT && remaining != {}
      invariant ListingSoFar(db.jobs, rows, remaining)
      invariant |rows| <= LIST_LIMIT
      decreases remaining
    {
      NewestExists(db.jobs, remaining);
      var n :| NewestIn(db.jobs, remaining, n);
      TakeNewestKeepsListing(db.jobs, rows, remaining, n);
      rows := rows + [n];
      remaining := remaining - {n};
    }
    FinishedSelectionIsListing(db.jobs, rows, remaining, LIST_LIMIT);
  }
}

=== FILE: auth.dfy ===
/**
  The sign-in callbacks: the signIn gate that upserts the user and enqueues the user's
  CreateUserKA job, the jwt enrichment of the token with the user's id and role, the session
  copy rule, and the authorized guard of the admin area.
 */
module Auth {
  import opened Wrappers
  import opened Schema
  import Enqueue
  import Worker

  const GOOGLE := "google"
  const ADMIN_PREFIX := "/admin"

  /* ------------------------ email normalisation ------------------------ */

  /** The characters String.prototype.trim removes: white space and line terminators. */
  predicate IsJsSpace(c: char)
  {
    || c == '\t' || c == '\n' || c == '\U{000B}' || c == '\U{000C}' || c == '\r' || c == ' '
    || c == '\U{00A0}' || c == '\U{1680}' || ('\U{2000}' <= c <= '\U{200A}')
    || c == '\U{2028}' || c == '\U{2029}' || c == '\U{202F}' || c == '\U{205F}'
    || c == '\U{3000}' || c == '\U{FEFF}'
  }

  /** `s` without its leading white space. */
  function TrimStart(s: string): (r: string)
    ensures |r| <= |s| && r == s[|s| - |r|..]
    ensures r == [] || !IsJsSpace(r[0])
    ensures forall i :: 0 <= i < |s| - |r| ==> IsJsSpace(s[i])
  {
    if s != [] && IsJsSpace(s[0]) then TrimStart(s[1..]) else s
  }

  /** `s` without its trailing white space. */
  function TrimEnd(s: string): (r: string)
    ensures |r| <= |s| && r == s[..|r|]
    ensures r == [] || !IsJsSpace(r[|r| - 1])
    ensures forall i :: |r| <= i < |s| ==> IsJsSpace(s[i])
  {
    if s != [] && IsJsSpace(s[|s| - 1]) then TrimEnd(s[..|s| - 1]) else s
  }

  /** String.prototype.trim: `s` is white space, then the result, then white space. */
  function Trim(s: string): (r: string)
    ensures |r| <= |s|
    ensures r == [] || (!IsJsSpace(r[0]) && !IsJsSpace(r[|r| - 1]))
    ensures exists p, q :: AllSpace(p) && AllSpace(q) && s == p + r + q
  {
    TrimSplits(s);
    TrimEnd(TrimStart(s))
  }

  /** The white space Trim removes lies on either side of what it keeps. */
  lemma TrimSplits(s: string)
    ensures var t := TrimStart(s); var r := TrimEnd(t);
            exists p, q :: AllSpace(p) && AllSpace(q) && s == p + r + q
  {
    var t := TrimStart(s);
    var r := TrimEnd(t);
    TrimStartSkipped(s);
    TrimEndSkipped(t);
    SplitAround(s, t, r);
  }

  /** What TrimStart drops is white space. */
  lemma TrimStartSkipped(s: string)
    ensures AllSpace(s[..|s| - |TrimStart(s)|])
  {
    var p := s[..|s| - |TrimStart(s)|];
    forall i | 0 <= i < |p| ensures IsJsSpace(p[i]) {
      assert p[i] == s[i];
    }
  }

  /** What TrimEnd drops is white space. */
  lemma TrimEndSkipped(t: string)
    ensures AllSpace(t[|TrimEnd(t)|..])
  {
    var q := t[|TrimEnd(t)|..];
    forall i | 0 <= i < |q| ensures IsJsSpace(q[i]) {
      assert q[i] == t[|TrimEnd(t)| + i];
    }
  }

  /** Cutting `s` where its suffix `t` starts, and `t` where its prefix `r` ends. */
  lemma SplitAround(s: string, t: string, r: string)
    requires |t| <= |s| && t == s[|s| - |t|..] && |r| <= |t| && r == t[..|r|]
    ensures s == s[..|s| - |t|] + r + t[|r|..]
  {
    assert s == s[..|s| - |t|] + t;
    assert t == r + t[|r|..];
  }

  /** A string with nothing to trim is its own trim. */
  lemma TrimFixesTrimmed(s: string)
    requires s == [] || (!IsJsSpace(s[0]) && !IsJsSpace(s[|s| - 1]))
    ensures Trim(s) == s
  {
  }

  lemma TrimIdempotent(s: string)
    ensures Trim(Trim(s)) == Trim(s)
  {
    TrimFixesTrimmed(Trim(s));
  }

  predicate IsUpper(c: char)
  {
    'A' <= c <= 'Z'
  }

  /** toLowerCase on the ASCII letters. */
  function LowerChar(c: char): (r: char)
    ensures !IsUpper(r)
    ensures !IsUpper(c) ==> r == c
  {
    if IsUpper(c) then (c as int + 32) as char else c
  }

  function ToLower(s: string): (r: string)
    ensures |r| == |s|
    ensures forall i :: 0 <= i < |s| ==> r[i] == LowerChar(s[i])
  {
    if s == [] then [] else [LowerChar(s[0])] + ToLower(s[1..])
  }

  /** An email as signIn stores it: not empty, no upper-case letter, nothing to trim. */
  predicate IsNormalEmail(e: string)
  {
    && e != []
    && (forall i :: 0 <= i < |e| ==> !IsUpper(e[i]))
    && !IsJsSpace(e[0]) && !IsJsSpace(e[|e| - 1])
  }

  /** What the lowercase-then-trim of signIn leaves: no upper-case letter, and nothing at all
      exactly when the input is all white space. */
  lemma LowerTrimFacts(s: string)
    ensures forall i :: 0 <= i < |Trim(ToLower(s))| ==> !IsUpper(Trim(ToLower(s))[i])
    ensures Trim(ToLower(s)) == [] <==> AllSpace(s)
  {
    var lowered := ToLower(s);
    var start := TrimStart(lowered);
    var e := TrimEnd(start);
    assert forall i :: 0 <= i < |start| ==> !IsUpper(start[i]);
    assert forall i :: 0 <= i < |e| ==> e[i] == start[i];
    LowerKeepsSpace(s);
    TrimEmptyIffAllSpace(lowered);
  }

  /** `user.email?.toLowerCase().trim()`, None when the email is missing or nothing is left. */
  function NormalizeEmail(email: Option<string>): (r: Option<string>)
    ensures r.Some? ==> IsNormalEmail(r.value)
    ensures r.None? <==> email.None? || AllSpace(email.value)
  {
    if email.None? then None
    else
      LowerTrimFacts(email.value);
      var e := Trim(ToLower(email.value));
      if e == [] then None else Some(e)
  }

  /** Normalising a normal email gives it back: the jwt lookup of the stored email, which
      lowercases and trims again, finds the same string. */
  lemma NormalizeEmailIdempotent(e: string)
    requires IsNormalEmail(e)
    ensures ToLower(e) == e && Trim(ToLower(e)) == e
    ensures NormalizeEmail(Some(e)) == Some(e)
  {
    assert ToLower(e) == e;
    TrimFixesTrimmed(e);
  }

  predicate AllSpace(s: string)
  {
    forall i :: 0 <= i < |s| ==> IsJsSpace(s[i])
  }

  /** Lowercasing neither creates nor removes white space. */
  lemma LowerKeepsSpace(s: string)
    ensures AllSpace(ToLower(s)) <==> AllSpace(s)
  {
    assert forall i :: 0 <= i < |s| ==> (IsJsSpace(ToLower(s)[i]) <==> IsJsSpace(s[i]));
  }

  /** Trimming leaves nothing exactly when the string is all white space. */
  lemma TrimEmptyIffAllSpace(s: string)
    ensures Trim(s) == [] <==> AllSpace(s)
  {
    var t := TrimStart(s);
    if AllSpace(s) {
      TrimStartAllSpace(s);
    } else {
      assert !IsJsSpace(t[0]);
      assert TrimEnd(t) != [];
    }
  }

  lemma {:induction false} ToLowerConcat(x: string, y: string)
    ensures ToLower(x + y) == ToLower(x) + ToLower(y)
  {
    var l, r := ToLower(x + y), ToLower(x) + ToLower(y);
    assert |l| == |r|;
    forall i | 0 <= i < |l|
      ensures l[i] == r[i]
    {
      if i < |x| {
        assert (x + y)[i] == x[i];
      } else {
        assert (x + y)[i] == y[i - |x|];
      }
    }
  }

  /** White space has no upper-case letter, so lowercasing leaves it as it is. */
  lemma SpaceIsLower(s: string)
    requires AllSpace(s)
    ensures ToLower(s) == s
  {
    assert forall i :: 0 <= i < |s| ==> !IsUpper(s[i]);
  }

  lemma {:induction false} TrimStartSkipsSpace(p: string, x: string)
    requires AllSpace(p)
    ensures TrimStart(p + x) == TrimStart(x)
    decreases |p|
  {
    if p != [] {
      assert (p + x)[0] == p[0];
      assert (p + x)[1..] == p[1..] + x;
      TrimStartSkipsSpace(p[1..], x);
    } else {
      assert p + x == x;
    }
  }

  lemma {:induction false} TrimEndSkipsSpace(x: string, q: string)
    requires AllSpace(q)
    ensures TrimEnd(x + q) == TrimEnd(x)
    decreases |q|
  {
    if q != [] {
      var xq := x + q;
      assert xq[|xq| - 1] == q[|q| - 1];
      assert xq[..|xq| - 1] == x + q[..|q| - 1];
      TrimEndSkipsSpace(x, q[..|q| - 1]);
    } else {
      assert x + q == x;
    }
  }

  lemma {:induction false} TrimStartAllSpace(s: string)
    requires AllSpace(s)
    ensures TrimStart(s) == []
    decreases |s|
  {
    if s != [] {
      TrimStartAllSpace(s[1..]);
    }
  }

  /** Leading white space is stripped the same way when more text follows a non-blank part. */
  lemma {:induction false} TrimStartAppend(s: string, t: string)
    requires TrimStart(s) != []
    ensures TrimStart(s + t) == TrimStart(s) + t
    decreases |s|
  {
    var st := s + t;
    assert st[0] == s[0];
    if IsJsSpace(s[0]) {
      assert TrimStart(s) == TrimStart(s[1..]);
      assert st[1..] == s[1..] + t;
      TrimStartAppend(s[1..], t);
      assert TrimStart(st) == TrimStart(st[1..]);
    } else {
      assert TrimStart(s) == s;
      assert TrimStart(st) == st;
    }
  }

  /** White space around a string does not survive the trim. */
  lemma TrimIgnoresOuterSpace(p: string, s: string, q: string)
    requires AllSpace(p) && AllSpace(q)
    ensures Trim(p + s + q) == Trim(s)
  {
    assert p + s + q == p + (s + q);
    TrimStartSkipsSpace(p, s + q);
    if TrimStart(s) == [] {
      assert AllSpace(s + q);
      TrimStartAllSpace(s + q);
    } else {
      TrimStartAppend(s, q);
      TrimEndSkipsSpace(TrimStart(s), q);
    }
  }

  /** Addresses that differ only in ASCII case and surrounding white space sign in as the same
      user. */
  lemma CaseAndSpaceInsensitive(a: string, b: string, p: string, q: string)
    requires ToLower(a) == ToLower(b)
    requires AllSpace(p) && AllSpace(q)
    ensures NormalizeEmail(Some(p + a + q)) == NormalizeEmail(Some(b))
  {
    ToLowerConcat(p + a, q);
    ToLowerConcat(p, a);
    SpaceIsLower(p);
    SpaceIsLower(q);
    TrimIgnoresOuterSpace(p, ToLower(a), q);
  }

  /* ------------------------ signIn ------------------------ */

  /** The row the upsert creates: every other column takes its default (role USER, no UAL,
      not pending). */
  function NewUser(email: string): User
  {
    User(email, USER, None, false, None, None)
  }

  /** The condition under which signIn enqueues a CreateUserKA job. */
  predicate ShouldEnqueue(u: User)
  {
    !Truthy(u.userUAL) && !u.kaPending
  }

  predicate EmailTaken(users: map<Id, User>, e: string)
  {
    exists uid :: uid in users && users[uid].email == e
  }

  /** findUnique by email. */
  method FindUserByEmail(db: Db, e: string) returns (found: Option<Id>)
    requires db.Valid()
    ensures found.None? <==> !EmailTaken(db.users, e)
    ensures found.Some? ==> found.value in db.users && db.users[found.value].email == e
  {
    if EmailTaken(db.users, e) {
      var uid :| uid in db.users && db.users[uid].email == e;
      found := Some(uid);
    } else {
      found := None;
    }
  }

  lemma AddUserKeepsEmailsUnique(users: map<Id, User>, id: Id, u: User)
    requires UniqueEmails(users) && id !in users && !EmailTaken(users, u.email)
    ensures UniqueEmails(users[id := u])
  {
  }

  /** The upsert on the unique email: the existing row unchanged, or a new row with defaults. */
  method UpsertUser(db: Db, e: string) returns (id: Id)
    requires db.Valid()
    modifies db`users, db`nextId
    ensures db.Valid()
    ensures id in db.users && db.users[id].email == e
    ensures EmailTaken(old(db.users), e) ==>
              id in old(db.users) && db.users == old(db.users) && db.nextId == old(db.nextId)
    ensures !EmailTaken(old(db.users), e) ==>
              && id == old(db.nextId) && db.nextId == old(db.nextId) + 1
              && db.users == old(db.users)[id := NewUser(e)]
  {
    var existing := FindUserByEmail(db, e);
    if existing.Some? {
      return existing.value;
    }
    id := db.nextId;
    AddUserKeepsEmailsUnique(db.users, id, NewUser(e));
    db.users := db.users[id := NewUser(e)];
    db.nextId := db.nextId + 1;
  }

  /** The effect of signIn for an accepted, normalised email `e`, from the tables
      (`users0`, `jobs0`, counter `next0`) to (`users1`, `jobs1`): the upsert yields the user
      `uid` with the row `row` (the existing one, or a new default row under the counter's
      key), then the user's CreateUserKA job is enqueued and the user marked pending when the
      row has no UAL and is not pending, unless the enqueue throws (`enqueueFails`), in which
      case nothing is enqueued. No other row changes; the counter `next1` has moved past the
      keys the inserts took. */
  ghost predicate SignInEffect(users0: map<Id, User>, jobs0: map<Id, Job>, next0: nat, e: string, now: Time,
                               enqueueFails: bool, uid: Id, row: User,
                               users1: map<Id, User>, jobs1: map<Id, Job>, next1: nat)
  {
    var afterUpsert := if EmailTaken(users0, e) then next0 else next0 + 1;
    && row.email == e
    && (EmailTaken(users0, e) ==> uid in users0 && row == users0[uid])
    && (!EmailTaken(users0, e) ==> uid == next0 && row == NewUser(e))
    && (ShouldEnqueue(row) && !enqueueFails ==>
          && users1 == users0[uid := Enqueue.MarkedPending(row, now)]
          && jobs1 == Enqueue.AfterEnqueue(jobs0, afterUpsert, CREATE_USER_KA, uid, None, now)
          && next1 == Enqueue.NextAfterEnqueue(jobs0, afterUpsert, CREATE_USER_KA, uid))
    && (!(ShouldEnqueue(row) && !enqueueFails) ==>
          users1 == users0[uid := row] && jobs1 == jobs0 && next1 == afterUpsert)
  }

  /** What signIn does for an accepted, normalised email `e`. The ghost results are the
      user's id and the row as the upsert left it. */
  method SignInUser(db: Db, e: string, now: Time, enqueueFails: bool) returns (ghost uid: Id, ghost row: User)
    requires db.Valid()
    modifies db`users, db`jobs, db`nextId
    ensures db.Valid()
    ensures SignInEffect(old(db.users), old(db.jobs), old(db.nextId), e, now, enqueueFails, uid, row,
                         db.users, db.jobs, db.nextId)
    ensures uid in db.users && db.users[uid].email == e
  {
    ghost var users0, next0 := db.users, db.nextId;
    var id := UpsertUser(db, e);
    uid := id;
    var current := db.users[id];
    row := current;
    assert db.users == users0[id := current] by {
      if EmailTaken(users0, e) {
        assert db.users == users0 && current == users0[id];
      }
    }
    if ShouldEnqueue(current) && !enqueueFails {
      ghost var users1 := db.users;
      Enqueue.EnqueueCreateUserKA(db, id, now);
      assert db.users == users1[id := Enqueue.MarkedPending(current, now)];
      assert users1[id := Enqueue.MarkedPending(current, now)] == users0[id := Enqueue.MarkedPending(current, now)];
    }
  }

  /** The signIn callback: only the google provider, and only with an email that is not empty
      once lowercased and trimmed; the enqueue's failure does not change the answer. On
      success the ghost results are the signed-in user and the row the upsert left. */
  method SignIn(db: Db, provider: string, email: Option<string>, now: Time, enqueueFails: bool)
    returns (ok: bool, ghost uid: Id, ghost row: User)
    requires db.Valid()
    modifies db`users, db`jobs, db`nextId
    ensures db.Valid()
    ensures ok <==> provider == GOOGLE && NormalizeEmail(email).Some?
    ensures !ok ==> db.users == old(db.users) && db.jobs == old(db.jobs) && db.nextId == old(db.nextId)
    ensures ok ==> SignInEffect(old(db.users), old(db.jobs), old(db.nextId), NormalizeEmail(email).value, now,
                                enqueueFails, uid, row, db.users, db.jobs, db.nextId)
    ensures ok ==> uid in db.users && db.users[uid].email == NormalizeEmail(email).value
  {
    uid, row := 0, NewUser("");
    if provider != GOOGLE {
      return false, uid, row;
    }
    var e := NormalizeEmail(email);
    if e.None? {
      return false, uid, row;
    }
    uid, row := SignInUser(db, e.value, now, enqueueFails);
    ok := true;
  }

  /** Signing in again with the same email, after a sign-in whose enqueue did not throw,
      changes nothing: the user is found, and is either pending or needs no job. */
  lemma SecondSignInChangesNothing(users0: map<Id, User>, jobs0: map<Id, Job>, next0: nat, e: string,
                                   now1: Time, now2: Time, fails2: bool, uid1: Id, row1: User,
                                   users1: map<Id, User>, jobs1: map<Id, Job>, next1: nat,
                                   uid2: Id, row2: User, users2: map<Id, User>, jobs2: map<Id, Job>, next2: nat)
    requires SignInEffect(users0, jobs0, next0, e, now1, false, uid1, row1, users1, jobs1, next1)
    requires UniqueEmails(users1)
    requires SignInEffect(users1, jobs1, next1, e, now2, fails2, uid2, row2, users2, jobs2, next2)
    ensures uid2 == uid1
    ensures users2 == users1 && jobs2 == jobs1 && next2 == next1
  {
    assert uid1 in users1 && users1[uid1].email == e;
    assert EmailTaken(users1, e);
    assert uid2 == uid1;
    assert !ShouldEnqueue(row2);
  }

  /** A first sign-in always enqueues the user's CreateUserKA job. */
  lemma NewUserIsEnqueued(e: string)
    ensures ShouldEnqueue(NewUser(e))
  {
  }

  /** While a job is pending, signIn does not enqueue another. */
  lemma PendingUserIsNotReenqueued(u: User, now: Time)
    ensures !ShouldEnqueue(Enqueue.MarkedPending(u, now))
  {
  }

  /** Once the CreateUserKA handler completes with a UAL, signIn never enqueues for the user again. */
  lemma CompletedUserIsNotReenqueued(users: map<Id, User>, assets: map<Id, Asset>,
                                     files: map<(Id, Variant), FileRow>, j: Job, e: Worker.External, uid: Id)
    requires j.jobType == CREATE_USER_KA && j.subjectId == Some(uid)
    requires e.createKA.Success? ==> e.createKA.value != ""
    requires Worker.Dispatch(users, assets, files, j, e).outcome == Worker.Completed
    ensures uid in Worker.Dispatch(users, assets, files, j, e).users
    ensures !ShouldEnqueue(Worker.Dispatch(users, assets, files, j, e).users[uid])
  {
  }

  /** A pending user whose CreateUserKA run throws is still pending afterwards, so signIn
      never enqueues for the user again, even when that run exhausted the job's attempts. */
  lemma FailedUserStaysBlocked(users: map<Id, User>, assets: map<Id, Asset>,
                               files: map<(Id, Variant), FileRow>, j: Job, e: Worker.External, uid: Id)
    requires j.jobType == CREATE_USER_KA && uid in users && users[uid].kaPending
    requires Worker.Dispatch(users, assets, files, j, e).outcome.Threw?
    ensures uid in Worker.Dispatch(users, assets, files, j, e).users
    ensures !ShouldEnqueue(Worker.Dispatch(users, assets, files, j, e).users[uid])
  {
  }

  /* ------------------------ jwt and session ------------------------ */

  /** The fields of the JWT the callbacks read and write. `sub` is None when absent or empty. */
  class Token {
    var sub: Option<Id>
    var email: Option<string>
    var id: Option<Id>
    var role: Option<Role>

    constructor (sub: Option<Id>, email: Option<string>)
      ensures this.sub == sub && this.email == email && id == None && role == None
    {
      this.sub, this.email := sub, email;
      id, role := None, None;
    }
  }

  /** The jwt callback. On the Edge runtime the token is returned as it is; elsewhere the user
      is looked up by `sub`, or else by the lowercased and trimmed email, and id and role
      (and, for the lookup by id, the email) are copied into the token. */
  method Jwt(db: Db, token: Token, edge: bool)
    requires db.Valid()
    modifies token
    ensures token.sub == old(token.sub)
    ensures edge ==> token.email == old(token.email) && token.id == old(token.id) && token.role == old(token.role)
    ensures !edge && token.sub.Some? ==>
              if token.sub.value in db.users then
                var u := db.users[token.sub.value];
                token.id == token.sub && token.role == Some(u.role) && token.email == Some(u.email)
              else
                token.email == old(token.email) && token.id == old(token.id) && token.role == old(token.role)
    ensures !edge && token.sub.None? ==> token.email == old(token.email)
    ensures !edge && token.sub.None? && Truthy(token.email) ==>
              var e := Trim(ToLower(token.email.value));
              && (!EmailTaken(db.users, e) ==> token.id == old(token.id) && token.role == old(token.role))
              && (forall uid :: uid in db.users && db.users[uid].email == e ==>
                    token.id == Some(uid) && token.role == Some(db.users[uid].role))
    ensures !edge && token.sub.None? && !Truthy(token.email) ==>
              token.id == old(token.id) && token.role == old(token.role)
  {
    if edge {
      return;
    }
    if token.sub.Some? {
      var uid := token.sub.value;
      if uid in db.users {
        var u := db.users[uid];
        token.id := Some(uid);
        token.role := Some(u.role);
        token.email := Some(u.email);
      }
    } else if Truthy(token.email) {
      var found := FindUserByEmail(db, Trim(ToLower(token.email.value)));
      if found.Some? {
        token.id := found;
        token.role := Some(db.users[found.value].role);
      }
    }
  }

  /** A token without `sub` whose email is the one signIn stored is matched to that user. */
  lemma JwtFindsSignedInUserByEmail(users: map<Id, User>, uid: Id, raw: string)
    requires uid in users && NormalizeEmail(Some(raw)) == Some(users[uid].email)
    ensures Truthy(Some(users[uid].email))
    ensures Trim(ToLower(users[uid].email)) == users[uid].email
  {
    NormalizeEmailIdempotent(users[uid].email);
  }

  class SessionUser {
    var id: Option<Id>
    var role: Option<Role>

    constructor ()
      ensures id == None && role == None
    {
      id, role := None, None;
    }
  }

  class Session {
    var user: SessionUser?

    constructor (user: SessionUser?)
      ensures this.user == user
    {
      this.user := user;
    }
  }

  /** The session callback: when the session has a user, id and role are copied from the token
      when the token has them, and kept otherwise. */
  method SessionCallback(session: Session, token: Token)
    modifies session.user
    ensures session.user == old(session.user)
    ensures session.user != null ==>
              && session.user.id == (if token.id.Some? then token.id else old(session.user.id))
              && session.user.role == (if token.role.Some? then token.role else old(session.user.role))
  {
    var u := session.user;
    if u != null {
      if token.id.Some? {
        u.id := token.id;
      }
      if token.role.Some? {
        u.role := token.role;
      }
    }
  }

  /* ------------------------ authorized ------------------------ */

  predicate StartsWith(s: string, prefix: string)
  {
    |prefix| <= |s| && s[..|prefix|] == prefix
  }

  /** The authorized callback: a path under the /admin prefix needs the ADMIN role; every
      other path is open. */
  predicate Authorized(pathname: string, role: Option<Role>)
    ensures role == Some(ADMIN) ==> Authorized(pathname, role)
    ensures |pathname| < |ADMIN_PREFIX| ==> Authorized(pathname, role)
    ensures !Authorized(pathname, role) ==> role != Some(ADMIN) && |ADMIN_PREFIX| <= |pathname| && pathname[..|ADMIN_PREFIX|] == ADMIN_PREFIX
  {
    !StartsWith(pathname, ADMIN_PREFIX) || role == Some(ADMIN)
  }

  /** Every path that begins with /admin, whatever follows, is open exactly to ADMIN; this
      includes paths such as /admin-tools, since the test is on the prefix and not on a
      path segment. */
  lemma AdminPrefixRequiresAdmin(suffix: string, role: Option<Role>)
    ensures Authorized(ADMIN_PREFIX + suffix, role) <==> role == Some(ADMIN)
  {
    assert (ADMIN_PREFIX + suffix)[..|ADMIN_PREFIX|] == ADMIN_PREFIX;
  }

  /** Any path outside the prefix is open to everyone, signed in or not. */
  lemma OtherPathsAreOpen(pathname: string, role: Option<Role>)
    requires !StartsWith(pathname, ADMIN_PREFIX)
    ensures Authorized(pathname, role)
  {
  }

  /** The test is case-sensitive and anchored at the start of the path: a path that differs
      from "/admin" in any of its first six characters, letter case included (as "/Admin"
      or "/api/admin" do), is open to everyone. */
  lemma PrefixIsExact(pathname: string, i: nat, role: Option<Role>)
    requires i < |ADMIN_PREFIX| && i < |pathname| && pathname[i] != ADMIN_PREFIX[i]
    ensures Authorized(pathname, role)
  {
    if |ADMIN_PREFIX| <= |pathname| {
      assert pathname[..|ADMIN_PREFIX|][i] == pathname[i];
    }
  }
}

=== FILE: enqueue.dfy ===
/**
  Idempotent job submission: each enqueue helper looks for an in-flight job of the same
  (type, subject) and inserts a new QUEUED row only when there is none.
 */
module Enqueue {
  import opened Wrappers
  import opened Schema

  const DEFAULT_MAX_ATTEMPTS := 5
  const EMPTY_PAYLOAD := "{}"

  /** A row that blocks another insert for (t, s): same type and subject, QUEUED or RUNNING. */
  predicate InFlight(j: Job, t: string, s: Id)
  {
    j.jobType == t && j.subjectId == Some(s) && (j.status == Queued || j.status == Running)
  }

  predicate HasInFlight(jobs: map<Id, Job>, t: string, s: Id)
  {
    exists id :: id in jobs && InFlight(jobs[id], t, s)
  }

  function InFlightIds(jobs: map<Id, Job>, t: string, s: Id): set<Id>
  {
    set id | id in jobs && InFlight(jobs[id], t, s)
  }

  /** The row the helpers create. They pass neither attempts nor scheduledAt; the schema's
      defaults are taken to be 0 and the creation time. */
  function NewJob(t: string, s: Id, parent: Option<Id>, now: Time): Job
  {
    Job(t, Some(s), EMPTY_PAYLOAD, Queued, 0, DEFAULT_MAX_ATTEMPTS, now, None, None, None, parent, now)
  }

  /** The user row after enqueueCreateUserKA: pending since `now`, with no error. */
  function MarkedPending(u: User, now: Time): User
  {
    u.(kaPending := true, kaQueuedAt := Some(now), kaError := None)
  }

  /** The job table after one deduplicated enqueue whose insert would get the key `newId`. */
  function AfterEnqueue(jobs: map<Id, Job>, newId: Id, t: string, s: Id, parent: Option<Id>, now: Time): map<Id, Job>
  {
    if HasInFlight(jobs, t, s) then jobs else jobs[newId := NewJob(t, s, parent, now)]
  }

  /** The key counter after an enqueue: it moves on only when a row was inserted. */
  function NextAfterEnqueue(jobs: map<Id, Job>, nextId: nat, t: string, s: Id): nat
  {
    if HasInFlight(jobs, t, s) then nextId else nextId + 1
  }

  /** The findFirst of the helpers: any in-flight row for (t, s), or none. */
  method FindInFlight(db: Db, t: string, s: Id) returns (existing: Option<Id>)
    ensures existing.None? <==> !HasInFlight(db.jobs, t, s)
    ensures existing.Some? ==> existing.value in db.jobs && InFlight(db.jobs[existing.value], t, s)
  {
    if HasInFlight(db.jobs, t, s) {
      var id :| id in db.jobs && InFlight(db.jobs[id], t, s);
      existing := Some(id);
    } else {
      existing := None;
    }
  }

  /** job.create: a new row under a key never handed out before. */
  method CreateJob(db: Db, t: string, s: Id, parent: Option<Id>, now: Time) returns (id: Id)
    requires db.Valid()
    modifies db`jobs, db`nextId
    ensures db.Valid()
    ensures id == old(db.nextId) && id !in old(db.jobs) && db.nextId == id + 1
    ensures db.jobs == old(db.jobs)[id := NewJob(t, s, parent, now)]
  {
    id := db.nextId;
    db.jobs := db.jobs[id := NewJob(t, s, parent, now)];
    db.nextId := db.nextId + 1;
  }

  /** The shared shape of the three helpers: return the in-flight job, or insert one. */
  method EnqueueDeduped(db: Db, t: string, s: Id, parent: Option<Id>, now: Time) returns (id: Id)
    requires db.Valid()
    modifies db`jobs, db`nextId
    ensures db.Valid()
    ensures db.jobs == AfterEnqueue(old(db.jobs), old(db.nextId), t, s, parent, now)
    ensures id in db.jobs && InFlight(db.jobs[id], t, s)
    ensures HasInFlight(old(db.jobs), t, s) ==> id in old(db.jobs) && db.nextId == old(db.nextId)
    ensures !HasInFlight(old(db.jobs), t, s) ==>
              && id == old(db.nextId) && db.nextId == old(db.nextId) + 1
              && db.jobs[id] == NewJob(t, s, parent, now)
  {
    var existing := FindInFlight(db, t, s);
    if existing.Some? {
      return existing.value;
    }
    id := CreateJob(db, t, s, parent, now);
  }

  /** enqueueCreateUserKA: dedup on (CreateUserKA, user), then mark the user pending whether
      or not a row was inserted. */
  method EnqueueCreateUserKA(db: Db, userId: Id, now: Time)
    requires db.Valid() && userId in db.users
    modifies db`jobs, db`nextId, db`users
    ensures db.Valid()
    ensures db.jobs == AfterEnqueue(old(db.jobs), old(db.nextId), CREATE_USER_KA, userId, None, now)
    ensures HasInFlight(db.jobs, CREATE_USER_KA, userId)
    ensures db.nextId == NextAfterEnqueue(old(db.jobs), old(db.nextId), CREATE_USER_KA, userId)
    ensures db.users == old(db.users)[userId := MarkedPending(old(db.users)[userId], now)]
  {
    var _ := EnqueueDeduped(db, CREATE_USER_KA, userId, None, now);
    db.users := db.users[userId := MarkedPending(db.users[userId], now)];
  }

  method EnqueuePinAssetToIPFS(db: Db, assetId: Id, now: Time) returns (id: Id)
    requires db.Valid()
    modifies db`jobs, db`nextId
    ensures db.Valid()
    ensures db.jobs == AfterEnqueue(old(db.jobs), old(db.nextId), PIN_ASSET_TO_IPFS, assetId, None, now)
    ensures id in db.jobs && InFlight(db.jobs[id], PIN_ASSET_TO_IPFS, assetId)
    ensures HasInFlight(old(db.jobs), PIN_ASSET_TO_IPFS, assetId) ==> id in old(db.jobs) && db.nextId == old(db.nextId)
    ensures !HasInFlight(old(db.jobs), PIN_ASSET_TO_IPFS, assetId) ==> id == old(db.nextId) && db.nextId == id + 1
  {
    id := EnqueueDeduped(db, PIN_ASSET_TO_IPFS, assetId, None, now);
  }

  method EnqueuePublishAssetKA(db: Db, assetId: Id, parentJobId: Option<Id>, now: Time) returns (id: Id)
    requires db.Valid()
    modifies db`jobs, db`nextId
    ensures db.Valid()
    ensures db.jobs == AfterEnqueue(old(db.jobs), old(db.nextId), PUBLISH_ASSET_KA, assetId, parentJobId, now)
    ensures id in db.jobs && InFlight(db.jobs[id], PUBLISH_ASSET_KA, assetId)
    ensures HasInFlight(old(db.jobs), PUBLISH_ASSET_KA, assetId) ==>
              id in old(db.jobs) && db.jobs == old(db.jobs) && db.nextId == old(db.nextId)
    ensures !HasInFlight(old(db.jobs), PUBLISH_ASSET_KA, assetId) ==>
              id == old(db.nextId) && db.nextId == id + 1 && db.jobs[id].parentJobId == parentJobId
  {
    id := EnqueueDeduped(db, PUBLISH_ASSET_KA, assetId, parentJobId, now);
  }

  /* ------------------------ properties of deduplication ------------------------ */

  /** After an enqueue there is an in-flight row for the key, and if there was at most one
      before there is exactly one after. */
  lemma EnqueueLeavesOneInFlight(jobs: map<Id, Job>, newId: Id, t: string, s: Id, parent: Option<Id>, now: Time)
    requires newId !in jobs
    requires |InFlightIds(jobs, t, s)| <= 1
    ensures |InFlightIds(AfterEnqueue(jobs, newId, t, s, parent, now), t, s)| == 1
  {
    if HasInFlight(jobs, t, s) {
      var id :| id in jobs && InFlight(jobs[id], t, s);
      assert id in InFlightIds(jobs, t, s);
    } else {
      var after := AfterEnqueue(jobs, newId, t, s, parent, now);
      assert InFlightIds(after, t, s) == {newId} by {
        forall id | id in after && id != newId
          ensures !InFlight(after[id], t, s)
        {
          assert id in jobs && after[id] == jobs[id];
        }
      }
    }
  }

  /** A second enqueue for the same key, with nothing finished in between, changes nothing:
      the existing row keeps its payload and its parent. */
  lemma EnqueueTwiceIsOnce(jobs: map<Id, Job>, newId1: Id, newId2: Id, t: string, s: Id,
                           parent1: Option<Id>, parent2: Option<Id>, now1: Time, now2: Time)
    ensures var once := AfterEnqueue(jobs, newId1, t, s, parent1, now1);
            AfterEnqueue(once, newId2, t, s, parent2, now2) == once
  {
    var once := AfterEnqueue(jobs, newId1, t, s, parent1, now1);
    if !HasInFlight(jobs, t, s) {
      assert InFlight(once[newId1], t, s);
    }
  }

  /** Two successive calls on a key with no in-flight row leave exactly one in-flight row. */
  lemma TwoCallsOneInFlight(jobs: map<Id, Job>, newId1: Id, newId2: Id, t: string, s: Id,
                            parent1: Option<Id>, parent2: Option<Id>, now1: Time, now2: Time)
    requires newId1 !in jobs
    requires !HasInFlight(jobs, t, s)
    ensures var twice := AfterEnqueue(AfterEnqueue(jobs, newId1, t, s, parent1, now1), newId2, t, s, parent2, now2);
            |InFlightIds(twice, t, s)| == 1
  {
    assert InFlightIds(jobs, t, s) == {};
    EnqueueLeavesOneInFlight(jobs, newId1, t, s, parent1, now1);
    EnqueueTwiceIsOnce(jobs, newId1, newId2, t, s, parent1, parent2, now1, now2);
  }

  /** DONE and FAILED rows for the key do not block: the enqueue inserts a new QUEUED row. */
  lemma TerminalRowsDoNotBlock(jobs: map<Id, Job>, newId: Id, t: string, s: Id, parent: Option<Id>, now: Time)
    requires forall id :: id in jobs && jobs[id].jobType == t && jobs[id].subjectId == Some(s) ==>
               jobs[id].status == Done || jobs[id].status == Failed
    ensures AfterEnqueue(jobs, newId, t, s, parent, now) == jobs[newId := NewJob(t, s, parent, now)]
  {
  }

  /** The rows of type `t`. */
  function OfType(jobs: map<Id, Job>, t: string): map<Id, Job>
  {
    map id | id in jobs && jobs[id].jobType == t :: jobs[id]
  }

  /** The key includes the type: the enqueue decides from the rows of type `t` alone, so rows
      of any other type (an in-flight PinAssetToIPFS row for the same subject, say) never stop
      a PublishAssetKA insert. */
  lemma OtherTypesDoNotBlock(jobs: map<Id, Job>, newId: Id, t: string, s: Id, parent: Option<Id>, now: Time)
    ensures AfterEnqueue(jobs, newId, t, s, parent, now)
              == if HasInFlight(OfType(jobs, t), t, s) then jobs else jobs[newId := NewJob(t, s, parent, now)]
  {
    var ofType := OfType(jobs, t);
    if HasInFlight(jobs, t, s) {
      var id :| id in jobs && InFlight(jobs[id], t, s);
      assert id in ofType && InFlight(ofType[id], t, s);
    }
  }
}

=== FILE: schema.dfy ===
/**
  The rows of the relational store that the job engine, the enqueue helpers, the upload
  route and the sign-in callbacks share, and the store itself.
 */
module Schema {
  import opened Wrappers

  /** Row identifiers. The database assigns opaque string keys; here they are naturals handed
      out by one counter, which is all the model needs of them: they are fresh and comparable. */
  type Id = nat

  /** A wall-clock instant, in milliseconds. */
  type Time = nat

  /** The job types the application enqueues. The column itself is a free string. */
  const CREATE_USER_KA := "CreateUserKA"
  const PIN_ASSET_TO_IPFS := "PinAssetToIPFS"
  const PUBLISH_ASSET_KA := "PublishAssetKA"

  datatype Status = Queued | Running | Done | Failed

  /** One row of the job table. */
  datatype Job = Job(
    jobType: string,
    subjectId: Option<Id>,
    payload: string,
    status: Status,
    attempts: nat,
    maxAttempts: nat,
    scheduledAt: Time,
    startedAt: Option<Time>,
    finishedAt: Option<Time>,
    error: Option<string>,
    parentJobId: Option<Id>,
    createdAt: Time)

  datatype Role = USER | ADMIN

  /** One row of the user table, restricted to the columns the core reads or writes. */
  datatype User = User(
    email: string,
    role: Role,
    userUAL: Option<string>,
    kaPending: bool,
    kaError: Option<string>,
    kaQueuedAt: Option<Time>)

  datatype AssetStatus = Uploaded | Published

  /** One row of the asset table. */
  datatype Asset = Asset(
    userId: Id,
    title: Option<string>,
    mime: string,
    size: nat,
    contentHash: string,
    status: AssetStatus,
    custody: string,
    ipfsCid: Option<string>)

  datatype Variant = Original | Thumb | Credentialed

  /** One row of the file table; (asset id, variant) is its unique key. */
  datatype FileRow = FileRow(url: string, mime: string, size: Option<nat>)

  /** JavaScript truthiness of a nullable string column: present and not empty. */
  predicate Truthy(s: Option<string>)
  {
    s.Some? && s.value != ""
  }

  /** The unique index on the user's email. */
  ghost predicate UniqueEmails(users: map<Id, User>)
  {
    forall a, b :: a in users && b in users && users[a].email == users[b].email ==> a == b
  }

  /** The shared store. Every operation of the core reads and rewrites these tables. */
  class Db {
    var jobs: map<Id, Job>
    var users: map<Id, User>
    var assets: map<Id, Asset>
    var files: map<(Id, Variant), FileRow>
    var nextId: nat

    /** Every key was handed out by the counter, emails are unique, and every file row belongs
        to an existing asset. */
    ghost predicate Valid()
      reads this
    {
      && (forall id :: id in jobs ==> id < nextId)
      && (forall id :: id in users ==> id < nextId)
      && (forall id :: id in assets ==> id < nextId)
      && (forall key :: key in files ==> key.0 in assets)
      && UniqueEmails(users)
    }

    constructor ()
      ensures Valid()
      ensures jobs == map[] && users == map[] && assets == map[] && files == map[]
    {
      jobs, users, assets, files := map[], map[], map[], map[];
      nextId := 0;
    }
  }
}

=== FILE: upload.dfy ===
/**
  The asset upload route: the fixed chain of request checks and their HTTP statuses, the
  extension chosen for each accepted type, the storage URLs, the rows the route creates and
  the two chained jobs it enqueues.
 */
module Upload {
  import opened Wrappers
  import opened Schema
  import Enqueue

  const MAX_BYTES := 20 * 1024 * 1024
  /** Slack allowed on the Content-Length preflight for the multipart envelope. */
  const PREFLIGHT_SLACK := 1024 * 10
  const MAX_DIM := 12000

  const JPEG := "image/jpeg"
  const PNG := "image/png"
  const WEBP := "image/webp"
  const ALLOWED: set<string> := {JPEG, PNG, WEBP}
  /** The type assumed when the form file carries none. */
  const OCTET_STREAM := "application/octet-stream"
  const CUSTODY := "platform"

  /* ------------------------ the request ------------------------ */

  /** The `file` field of the form: whether it is a blob with arrayBuffer, its declared type
      and size, and the length of its bytes. */
  datatype FormFile = FormFile(hasArrayBuffer: bool, mime: Option<string>, size: Option<nat>, byteLength: nat)

  /** What the image decoder reports for the bytes: it fails, or gives optional dimensions. */
  datatype ImageMeta = Undecodable | Meta(width: Option<nat>, height: Option<nat>)

  datatype UploadRequest = UploadRequest(
    sessionUserId: Option<Id>,
    contentLength: Option<int>,  // the header as a number; None when absent, empty or not numeric
    file: Option<FormFile>,
    title: Option<string>,
    meta: ImageMeta)

  datatype Rejection =
    | Unauthorized
    | PayloadTooLarge
    | MissingFile
    | UnsupportedType(mime: string)
    | FileTooLarge
    | InvalidImage
    | DimensionsTooLarge

  function HttpStatus(r: Rejection): nat
  {
    match r
    case Unauthorized => 401
    case PayloadTooLarge => 413
    case MissingFile => 400
    case UnsupportedType(_) => 415
    case FileTooLarge => 413
    case InvalidImage => 422
    case DimensionsTooLarge => 422
  }

  /** The type the route validates: the declared one, else application/octet-stream. */
  function MimeOf(f: FormFile): string
  {
    if f.mime.Some? then f.mime.value else OCTET_STREAM
  }

  /** The size the route validates: the declared one, else the length of the bytes. */
  function SizeOf(f: FormFile): nat
  {
    if f.size.Some? then f.size.value else f.byteLength
  }

  /** A dimension the decoder reported as a non-zero number. */
  predicate HasDim(d: Option<nat>)
  {
    d.Some? && d.value > 0
  }

  predicate PreflightTooLarge(req: UploadRequest)
  {
    req.contentLength.Some? && req.contentLength.value > MAX_BYTES + PREFLIGHT_SLACK
  }

  predicate FilePresent(req: UploadRequest)
  {
    req.file.Some? && req.file.value.hasArrayBuffer
  }

  datatype Accepted = Accepted(userId: Id, mime: string, size: nat)

  /** Every check of the route passes: a session, the preflight, a file, an allowed type, the
      size limit, a decodable image with non-zero dimensions within the limit. */
  predicate PassesAllChecks(req: UploadRequest)
  {
    && req.sessionUserId.Some?
    && !PreflightTooLarge(req)
    && FilePresent(req)
    && MimeOf(req.file.value) in ALLOWED
    && SizeOf(req.file.value) <= MAX_BYTES
    && req.meta.Meta? && HasDim(req.meta.width) && HasDim(req.meta.height)
    && req.meta.width.value <= MAX_DIM && req.meta.height.value <= MAX_DIM
  }

  /** The checks of POST, in the route's order; the first that fails decides the answer. */
  function Validate(req: UploadRequest): (r: Result<Accepted, Rejection>)
    ensures req.sessionUserId.None? ==> r == Failure(Unauthorized)
    ensures req.sessionUserId.Some? && !PreflightTooLarge(req) && !FilePresent(req) ==> r == Failure(MissingFile)
    ensures r.Success? <==> PassesAllChecks(req)
    ensures r.Success? ==> r.value == Accepted(req.sessionUserId.value, MimeOf(req.file.value), SizeOf(req.file.value))
    ensures r.Failure? && r.error.UnsupportedType? ==> r.error.mime !in ALLOWED
  {
    if req.sessionUserId.None? then Failure(Unauthorized)
    else if PreflightTooLarge(req) then Failure(PayloadTooLarge)
    else if !FilePresent(req) then Failure(MissingFile)
    else
      var f := req.file.value;
      var mime := MimeOf(f);
      if mime !in ALLOWED then Failure(UnsupportedType(mime))
      else if SizeOf(f) > MAX_BYTES then Failure(FileTooLarge)
      else
        match req.meta
        case Undecodable => Failure(InvalidImage)
        case Meta(w, h) =>
          if !HasDim(w) || !HasDim(h) then Failure(InvalidImage)
          else if w.value > MAX_DIM || h.value > MAX_DIM then Failure(DimensionsTooLarge)
          else Success(Accepted(req.sessionUserId.value, mime, SizeOf(f)))
  }

  /** With a signed-in user, a Content-Length over the limit is refused before the form is
      looked at, whatever the file and the image are. */
  lemma PreflightPrecedesForm(req: UploadRequest)
    requires req.sessionUserId.Some? && PreflightTooLarge(req)
    ensures Validate(req) == Failure(PayloadTooLarge)
    ensures HttpStatus(Validate(req).error) == 413
  {
  }

  /** The type is checked before the size: a disallowed type is answered 415 even when the
      file is also too large, and a file without a type is refused as octet-stream. */
  lemma TypeCheckPrecedesSize(req: UploadRequest)
    requires req.sessionUserId.Some? && !PreflightTooLarge(req) && FilePresent(req)
    requires MimeOf(req.file.value) !in ALLOWED
    ensures Validate(req) == Failure(UnsupportedType(MimeOf(req.file.value)))
    ensures HttpStatus(Validate(req).error) == 415
    ensures req.file.value.mime.None? ==> Validate(req).error.mime == OCTET_STREAM
  {
  }

  /** A declared size is what is compared with the limit, whatever the length of the bytes:
      a declared size over the limit is refused, and one within it passes even when the bytes
      are longer. */
  lemma DeclaredSizeDecides(req: UploadRequest)
    requires req.sessionUserId.Some? && !PreflightTooLarge(req) && FilePresent(req)
    requires MimeOf(req.file.value) in ALLOWED && req.file.value.size.Some?
    ensures req.file.value.size.value > MAX_BYTES ==> Validate(req) == Failure(FileTooLarge)
    ensures req.file.value.size.value <= MAX_BYTES ==> Validate(req) != Failure(FileTooLarge)
    ensures Validate(req).Success? ==> Validate(req).value.size == req.file.value.size.value
  {
  }

  /** Without a declared size the length of the bytes is what is compared with the limit. */
  lemma SizeFallsBackToBytes(req: UploadRequest)
    requires req.sessionUserId.Some? && !PreflightTooLarge(req) && FilePresent(req)
    requires MimeOf(req.file.value) in ALLOWED
    requires req.file.value.size.None? && req.file.value.byteLength > MAX_BYTES
    ensures Validate(req) == Failure(FileTooLarge)
    ensures HttpStatus(Validate(req).error) == 413
  {
  }

  /** The image checks come last: missing dimensions are invalid data, oversized ones are
      refused separately; both answer 422. */
  lemma ImageChecksAreLast(req: UploadRequest)
    requires req.sessionUserId.Some? && !PreflightTooLarge(req) && FilePresent(req)
    requires MimeOf(req.file.value) in ALLOWED && SizeOf(req.file.value) <= MAX_BYTES
    ensures (req.meta.Undecodable? || !HasDim(req.meta.width) || !HasDim(req.meta.height)) ==>
              Validate(req) == Failure(InvalidImage)
    ensures req.meta.Meta? && HasDim(req.meta.width) && HasDim(req.meta.height) &&
            (req.meta.width.value > MAX_DIM || req.meta.height.value > MAX_DIM) ==>
              Validate(req) == Failure(DimensionsTooLarge)
    ensures Validate(req).Failure? ==> HttpStatus(Validate(req).error) == 422
  {
  }

  /* ------------------------ paths ------------------------ */

  /** The file extension stored for each accepted type; anything else gets none. */
  function ExtForMime(m: string): (e: string)
    ensures e != "" <==> m in ALLOWED
    ensures e == "" || e[0] == '.'
  {
    if m == JPEG then ".jpg"
    else if m == PNG then ".png"
    else if m == WEBP then ".webp"
    else ""
  }

  /** Different accepted types get different extensions. */
  lemma ExtForMimeInjective(m1: string, m2: string)
    requires m1 in ALLOWED && m2 in ALLOWED && m1 != m2
    ensures ExtForMime(m1) != ExtForMime(m2)
  {
  }

  function Digit(d: nat): char
    requires d < 10
  {
    "0123456789"[d]
  }

  predicate IsDigit(c: char)
  {
    '0' <= c <= '9'
  }

  /** The decimal text of a row id, as it appears in a storage path. */
  function IdText(n: nat): (s: string)
    ensures |s| >= 1
    ensures forall i :: 0 <= i < |s| ==> IsDigit(s[i])
    ensures n < 10 <==> |s| == 1
  {
    if n < 10 then [Digit(n)] else IdText(n / 10) + [Digit(n % 10)]
  }

  lemma {:induction false} IdTextInjective(a: nat, b: nat)
    requires IdText(a) == IdText(b)
    ensures a == b
    decreases a
  {
    if a >= 10 && b >= 10 {
      var sa, sb := IdText(a), IdText(b);
      assert sa[..|sa| - 1] == IdText(a / 10);
      assert sb[..|sb| - 1] == IdText(b / 10);
      IdTextInjective(a / 10, b / 10);
      assert "0123456789"[a % 10] == "0123456789"[b % 10];
    } else if a < 10 && b < 10 {
      assert "0123456789"[a] == "0123456789"[b];
    }
  }

  /** An id followed by text that starts with a non-digit can be read back from the result. */
  lemma IdThenSeparatorInjective(a: nat, b: nat, s1: string, s2: string)
    requires |s1| > 0 && |s2| > 0 && !IsDigit(s1[0]) && !IsDigit(s2[0])
    ensures IdText(a) + s1 == IdText(b) + s2 ==> a == b && s1 == s2
  {
    var ta, tb := IdText(a), IdText(b);
    if ta + s1 == tb + s2 {
      var whole := ta + s1;
      assert forall i :: 0 <= i < |ta| ==> IsDigit(whole[i]);
      assert forall i :: 0 <= i < |tb| ==> IsDigit(whole[i]) by {
        assert whole == tb + s2;
      }
      assert !IsDigit(whole[|ta|]);
      assert !IsDigit(whole[|tb|]) by {
        assert whole == tb + s2;
      }
      assert |ta| == |tb|;
      assert ta == whole[..|ta|] == tb;
      IdTextInjective(a, b);
      assert s1 == whole[|ta|..] == s2;
    }
  }

  lemma PrefixCancels(p: string, x: string, y: string)
    ensures p + x == p + y ==> x == y
  {
    if p + x == p + y {
      assert x == (p + x)[|p|..];
      assert y == (p + y)[|p|..];
    }
  }

  const UPLOADS_PREFIX := "/uploads/"

  /** The public URL of the stored original. */
  function OriginalUrl(assetId: Id, mime: string): string
  {
    UPLOADS_PREFIX + IdText(assetId) + "/original" + ExtForMime(mime)
  }

  /** The public URL of the stored thumbnail. */
  function ThumbUrl(assetId: Id): string
  {
    UPLOADS_PREFIX + IdText(assetId) + "/thumb.webp"
  }

  /** An original is served under the uploads prefix, with the extension of its type. */
  lemma OriginalUrlShape(assetId: Id, mime: string)
    ensures var r := OriginalUrl(assetId, mime);
            && |UPLOADS_PREFIX| < |r| && r[..|UPLOADS_PREFIX|] == UPLOADS_PREFIX
            && |ExtForMime(mime)| < |r| && r[|r| - |ExtForMime(mime)|..] == ExtForMime(mime)
  {
    var r, e := OriginalUrl(assetId, mime), ExtForMime(mime);
    assert r == UPLOADS_PREFIX + (IdText(assetId) + "/original" + e);
    assert r == (UPLOADS_PREFIX + IdText(assetId) + "/original") + e;
  }

  /** A thumbnail is served under the uploads prefix, as thumb.webp. */
  lemma ThumbUrlShape(assetId: Id)
    ensures var r := ThumbUrl(assetId);
            && |UPLOADS_PREFIX| < |r| && r[..|UPLOADS_PREFIX|] == UPLOADS_PREFIX
            && |"/thumb.webp"| < |r| && r[|r| - |"/thumb.webp"|..] == "/thumb.webp"
  {
    var r := ThumbUrl(assetId);
    assert r == UPLOADS_PREFIX + (IdText(assetId) + "/thumb.webp");
  }

  /** A URL under the uploads prefix determines the id and what follows it. */
  lemma UploadsUrlInjective(a: Id, b: Id, s1: string, s2: string)
    requires |s1| > 0 && |s2| > 0 && !IsDigit(s1[0]) && !IsDigit(s2[0])
    ensures UPLOADS_PREFIX + IdText(a) + s1 == UPLOADS_PREFIX + IdText(b) + s2 ==> a == b && s1 == s2
  {
    var p := UPLOADS_PREFIX;
    assert p + IdText(a) + s1 == p + (IdText(a) + s1);
    assert p + IdText(b) + s2 == p + (IdText(b) + s2);
    PrefixCancels(p, IdText(a) + s1, IdText(b) + s2);
    IdThenSeparatorInjective(a, b, s1, s2);
  }

  /** Two originals share a URL only when they belong to the same asset and have the same
      extension. */
  lemma OriginalUrlsDistinct(a: Id, b: Id, m1: string, m2: string)
    ensures OriginalUrl(a, m1) == OriginalUrl(b, m2) ==> a == b && ExtForMime(m1) == ExtForMime(m2)
  {
    OriginalPathsDistinct(a, b, ExtForMime(m1), ExtForMime(m2));
  }

  /** The path of an original determines its asset and its extension. */
  lemma OriginalPathsDistinct(a: Id, b: Id, e1: string, e2: string)
    ensures UPLOADS_PREFIX + IdText(a) + "/original" + e1 == UPLOADS_PREFIX + IdText(b) + "/original" + e2
            ==> a == b && e1 == e2
  {
    var oa, ob := "/original" + e1, "/original" + e2;
    assert UPLOADS_PREFIX + IdText(a) + "/original" + e1 == UPLOADS_PREFIX + IdText(a) + oa;
    assert UPLOADS_PREFIX + IdText(b) + "/original" + e2 == UPLOADS_PREFIX + IdText(b) + ob;
    UploadsUrlInjective(a, b, oa, ob);
    if oa == ob {
      PrefixCancels("/original", e1, e2);
    }
  }

  /** Two assets never share a thumbnail URL. */
  lemma ThumbUrlsDistinct(a: Id, b: Id)
    ensures ThumbUrl(a) == ThumbUrl(b) ==> a == b
  {
    UploadsUrlInjective(a, b, "/thumb.webp", "/thumb.webp");
  }

  /** No original, of any asset, has the URL of a thumbnail. */
  lemma OriginalIsNeverThumb(a: Id, b: Id, m: string)
    ensures OriginalUrl(a, m) != ThumbUrl(b)
  {
    OriginalPathIsNeverThumb(a, b, ExtForMime(m));
  }

  /** The path of an original never equals the path of a thumbnail. */
  lemma OriginalPathIsNeverThumb(a: Id, b: Id, e: string)
    ensures UPLOADS_PREFIX + IdText(a) + "/original" + e != UPLOADS_PREFIX + IdText(b) + "/thumb.webp"
  {
    var oa, t := "/original" + e, "/thumb.webp";
    assert UPLOADS_PREFIX + IdText(a) + "/original" + e == UPLOADS_PREFIX + IdText(a) + oa;
    UploadsUrlInjective(a, b, oa, t);
    assert oa != t by {
      assert oa[1] == 'o' && t[1] == 't';
    }
  }

  /* ------------------------ the route ------------------------ */

  /** A title that is absent or empty is stored as none. */
  function TitleOf(t: Option<string>): Option<string>
  {
    if t.Some? && t.value != "" then t else None
  }

  datatype UploadResponse =
    | Rejected(reason: Rejection)
    | Created(assetId: Id, title: Option<string>, original: string, thumb: string,
              contentHash: string, size: nat, mime: string)
    | ServerError  // a step after the asset insert threw; the framework answers 500

  /** Where the work after the asset insert stops: it runs to the end, or a throw from the
      re-encoding, the file saving, the thumbnail encoder or the file rows' insert (one
      statement, so it writes no row when it throws) stops it before the file rows, or the
      first enqueue of the chain throws and stops it after the file rows, before the jobs. */
  datatype Interruption = Uninterrupted | FailsBeforeFileRows | FailsBeforeJobs

  /** The key the second enqueue of the chain would insert under: the first one took the
      counter's value only when it inserted. */
  function NextAfterPin(jobs: map<Id, Job>, nextId: nat, assetId: Id): nat
  {
    Enqueue.NextAfterEnqueue(jobs, nextId, PIN_ASSET_TO_IPFS, assetId)
  }

  /** `pinId` is what the pin enqueue returns: an in-flight pin row of the asset, the new one
      when there was none. */
  ghost predicate PinReturned(jobs: map<Id, Job>, nextId: nat, assetId: Id, pinId: Id, now: Time)
  {
    var afterPin := Enqueue.AfterEnqueue(jobs, nextId, PIN_ASSET_TO_IPFS, assetId, None, now);
    && pinId in afterPin && Enqueue.InFlight(afterPin[pinId], PIN_ASSET_TO_IPFS, assetId)
    && (!Enqueue.HasInFlight(jobs, PIN_ASSET_TO_IPFS, assetId) ==> pinId == nextId)
  }

  /** The job table after the chain: the deduplicated pin enqueue, then the deduplicated
      publish enqueue whose parent is the returned pin row. */
  function ChainedJobs(jobs: map<Id, Job>, nextId: nat, assetId: Id, pinId: Id, now: Time): map<Id, Job>
  {
    var afterPin := Enqueue.AfterEnqueue(jobs, nextId, PIN_ASSET_TO_IPFS, assetId, None, now);
    Enqueue.AfterEnqueue(afterPin, NextAfterPin(jobs, nextId, assetId), PUBLISH_ASSET_KA, assetId, Some(pinId), now)
  }

  /** The key counter after the chain: past every key its two enqueues took. */
  function ChainedNextId(jobs: map<Id, Job>, nextId: nat, assetId: Id, now: Time): nat
  {
    var afterPin := Enqueue.AfterEnqueue(jobs, nextId, PIN_ASSET_TO_IPFS, assetId, None, now);
    Enqueue.NextAfterEnqueue(afterPin, NextAfterPin(jobs, nextId, assetId), PUBLISH_ASSET_KA, assetId)
  }

  /** `after` is the job table the chain leaves behind `before`, for some returned pin row. */
  ghost predicate ChainedFrom(before: map<Id, Job>, nextId: nat, assetId: Id, now: Time, after: map<Id, Job>)
  {
    exists pinId :: PinReturned(before, nextId, assetId, pinId, now) && after == ChainedJobs(before, nextId, assetId, pinId, now)
  }

  /** createChainedJobsForAssetUpload: a pin job, then a publish job whose parent is it. */
  method CreateChainedJobsForAssetUpload(db: Db, assetId: Id, now: Time) returns (pinId: Id, publishId: Id)
    requires db.Valid()
    modifies db`jobs, db`nextId
    ensures db.Valid()
    ensures PinReturned(old(db.jobs), old(db.nextId), assetId, pinId, now)
    ensures db.jobs == ChainedJobs(old(db.jobs), old(db.nextId), assetId, pinId, now)
    ensures db.nextId == ChainedNextId(old(db.jobs), old(db.nextId), assetId, now)
    ensures pinId in db.jobs && Enqueue.InFlight(db.jobs[pinId], PIN_ASSET_TO_IPFS, assetId)
    ensures publishId in db.jobs && Enqueue.InFlight(db.jobs[publishId], PUBLISH_ASSET_KA, assetId)
    ensures !Enqueue.HasInFlight(old(db.jobs), PUBLISH_ASSET_KA, assetId) ==>
              publishId !in old(db.jobs) && db.jobs[publishId].parentJobId == Some(pinId)
    ensures !Enqueue.HasInFlight(old(db.jobs), PIN_ASSET_TO_IPFS, assetId) ==> pinId !in old(db.jobs)
    ensures forall k :: k in old(db.jobs) ==> k in db.jobs && db.jobs[k] == old(db.jobs)[k]
  {
    pinId := Enqueue.EnqueuePinAssetToIPFS(db, assetId, now);
    ghost var mid := db.jobs;
    assert db.nextId == NextAfterPin(old(db.jobs), old(db.nextId), assetId);
    publishId := Enqueue.EnqueuePublishAssetKA(db, assetId, Some(pinId), now);
    assert forall k :: k in old(db.jobs) ==> k in mid && mid[k] == old(db.jobs)[k];
    if !Enqueue.HasInFlight(old(db.jobs), PUBLISH_ASSET_KA, assetId) {
      assert !Enqueue.HasInFlight(mid, PUBLISH_ASSET_KA, assetId) by {
        forall k | k in mid
          ensures !Enqueue.InFlight(mid[k], PUBLISH_ASSET_KA, assetId)
        {
          if k !in old(db.jobs) {
            assert mid[k].jobType == PIN_ASSET_TO_IPFS;
          } else {
            assert mid[k] == old(db.jobs)[k];
          }
        }
      }
    }
  }

  /** For an asset with no in-flight pin or publish job, the chain inserts exactly two rows
      under the next two keys: the pin job, and the publish job whose parent is that pin job. */
  lemma ChainOnFreshAsset(before: map<Id, Job>, nextId: nat, assetId: Id, now: Time, after: map<Id, Job>)
    requires forall k :: k in before ==> k < nextId
    requires !Enqueue.HasInFlight(before, PIN_ASSET_TO_IPFS, assetId)
    requires !Enqueue.HasInFlight(before, PUBLISH_ASSET_KA, assetId)
    requires ChainedFrom(before, nextId, assetId, now, after)
    ensures after == before[nextId := Enqueue.NewJob(PIN_ASSET_TO_IPFS, assetId, None, now)]
                           [nextId + 1 := Enqueue.NewJob(PUBLISH_ASSET_KA, assetId, Some(nextId), now)]
  {
    var pinId :| PinReturned(before, nextId, assetId, pinId, now) && after == ChainedJobs(before, nextId, assetId, pinId, now);
    var afterPin := before[nextId := Enqueue.NewJob(PIN_ASSET_TO_IPFS, assetId, None, now)];
    assert !Enqueue.HasInFlight(afterPin, PUBLISH_ASSET_KA, assetId) by {
      forall k | k in afterPin
        ensures !Enqueue.InFlight(afterPin[k], PUBLISH_ASSET_KA, assetId)
      {
        if k == nextId {
          assert afterPin[k].jobType == PIN_ASSET_TO_IPFS;
        }
      }
    }
  }

  /** The chain never rewrites or removes a row, and adds at most the two rows under the next
      two keys; a publish row it adds has the returned pin row as its parent. */
  lemma ChainKeepsExistingRows(before: map<Id, Job>, nextId: nat, assetId: Id, now: Time, after: map<Id, Job>)
    requires forall k :: k in before ==> k < nextId
    requires ChainedFrom(before, nextId, assetId, now, after)
    ensures forall k :: k in before ==> k in after && after[k] == before[k]
    ensures forall k :: k in after && k !in before ==> k == nextId || k == nextId + 1
    ensures Enqueue.HasInFlight(after, PIN_ASSET_TO_IPFS, assetId)
    ensures Enqueue.HasInFlight(after, PUBLISH_ASSET_KA, assetId)
    ensures forall k :: k in after && k !in before && after[k].jobType == PUBLISH_ASSET_KA ==>
              exists p :: after[k].parentJobId == Some(p) && p in after && Enqueue.InFlight(after[p], PIN_ASSET_TO_IPFS, assetId)
  {
    var pinId :| PinReturned(before, nextId, assetId, pinId, now) && after == ChainedJobs(before, nextId, assetId, pinId, now);
    var afterPin := Enqueue.AfterEnqueue(before, nextId, PIN_ASSET_TO_IPFS, assetId, None, now);
    var n2 := NextAfterPin(before, nextId, assetId);
    assert forall k :: k in afterPin ==> k < n2;
    assert pinId in after && after[pinId] == afterPin[pinId];
    if !Enqueue.HasInFlight(afterPin, PUBLISH_ASSET_KA, assetId) {
      assert Enqueue.InFlight(after[n2], PUBLISH_ASSET_KA, assetId);
    }
  }

  /** The two file rows POST stores for the asset `a`. */
  function UploadedFiles(files: map<(Id, Variant), FileRow>, a: Id, mime: string, normalizedLength: nat,
                         thumbLength: nat): map<(Id, Variant), FileRow>
  {
    files[(a, Original) := FileRow(OriginalUrl(a, mime), mime, Some(normalizedLength))]
         [(a, Thumb) := FileRow(ThumbUrl(a), WEBP, Some(thumbLength))]
  }

  /** asset.create: the row under a key never handed out before. */
  method CreateAsset(db: Db, row: Asset) returns (a: Id)
    requires db.Valid()
    modifies db`assets, db`nextId
    ensures db.Valid()
    ensures a == old(db.nextId) && a !in old(db.assets) && db.nextId == a + 1
    ensures db.assets == old(db.assets)[a := row]
  {
    a := db.nextId;
    db.assets := db.assets[a := row];
    db.nextId := db.nextId + 1;
  }

  /** file.createMany: the ORIGINAL and THUMB rows of an existing asset. */
  method CreateFileRows(db: Db, a: Id, mime: string, normalizedLength: nat, thumbLength: nat)
    requires db.Valid() && a in db.assets
    modifies db`files
    ensures db.Valid()
    ensures db.files == UploadedFiles(old(db.files), a, mime, normalizedLength, thumbLength)
  {
    db.files := UploadedFiles(db.files, a, mime, normalizedLength, thumbLength);
  }

  /** The part of POST after validation: create the asset row, then, unless a step throws,
      the two file rows and the chained jobs. A throw leaves the rows written so far. */
  method StoreUpload(db: Db, acc: Accepted, title: Option<string>, now: Time, digestHex: string,
                     normalizedLength: nat, thumbLength: nat, interruption: Interruption)
    returns (resp: UploadResponse)
    requires db.Valid()
    modifies db`jobs, db`nextId, db`assets, db`files
    ensures db.Valid()
    ensures var a := old(db.nextId);
            && a !in old(db.assets)
            && db.assets == old(db.assets)[a := Asset(acc.userId, title, acc.mime, acc.size,
                                                       "0x" + digestHex, Uploaded, CUSTODY, None)]
            && (interruption == Uninterrupted ==>
                  && resp == Created(a, title, OriginalUrl(a, acc.mime), ThumbUrl(a),
                                     "0x" + digestHex, normalizedLength, acc.mime)
                  && db.files == UploadedFiles(old(db.files), a, acc.mime, normalizedLength, thumbLength)
                  && ChainedFrom(old(db.jobs), a + 1, a, now, db.jobs)
                  && db.nextId == ChainedNextId(old(db.jobs), a + 1, a, now))
            && (interruption == FailsBeforeFileRows ==>
                  && resp == ServerError && db.files == old(db.files) && db.jobs == old(db.jobs)
                  && db.nextId == a + 1)
            && (interruption == FailsBeforeJobs ==>
                  && resp == ServerError
                  && db.files == UploadedFiles(old(db.files), a, acc.mime, normalizedLength, thumbLength)
                  && db.jobs == old(db.jobs) && db.nextId == a + 1)
  {
    var a := CreateAsset(db, Asset(acc.userId, title, acc.mime, acc.size, "0x" + digestHex, Uploaded, CUSTODY, None));
    if interruption == FailsBeforeFileRows {
      return ServerError;
    }
    CreateFileRows(db, a, acc.mime, normalizedLength, thumbLength);
    if interruption == FailsBeforeJobs {
      return ServerError;
    }
    ghost var jobs0, next0 := db.jobs, db.nextId;
    var pinId, publishId := CreateChainedJobsForAssetUpload(db, a, now);
    assert PinReturned(jobs0, next0, a, pinId, now) && db.jobs == ChainedJobs(jobs0, next0, a, pinId, now);
    resp := Created(a, title, OriginalUrl(a, acc.mime), ThumbUrl(a), "0x" + digestHex, normalizedLength, acc.mime);
  }

  /** POST: validate, then store the asset, its two file rows and the chained jobs.
      `digestHex` is the SHA-256 of the bytes in hex, `normalizedLength` and `thumbLength`
      the sizes of the re-encoded original and of the thumbnail; `interruption` says whether a
      step after the asset insert threw. */
  method Post(db: Db, req: UploadRequest, now: Time, digestHex: string, normalizedLength: nat, thumbLength: nat,
              interruption: Interruption)
    returns (resp: UploadResponse)
    requires db.Valid()
    modifies db`jobs, db`nextId, db`assets, db`files
    ensures db.Valid()
    ensures Validate(req).Failure? ==>
              && resp == Rejected(Validate(req).error)
              && db.jobs == old(db.jobs) && db.assets == old(db.assets)
              && db.files == old(db.files) && db.nextId == old(db.nextId)
    ensures Validate(req).Success? ==>
              var acc := Validate(req).value;
              var a := old(db.nextId);
              && a !in old(db.assets)
              && db.assets == old(db.assets)[a := Asset(acc.userId, TitleOf(req.title), acc.mime, acc.size,
                                                         "0x" + digestHex, Uploaded, CUSTODY, None)]
              && (interruption == Uninterrupted ==>
                    && resp == Created(a, TitleOf(req.title), OriginalUrl(a, acc.mime), ThumbUrl(a),
                                       "0x" + digestHex, normalizedLength, acc.mime)
                    && db.files == UploadedFiles(old(db.files), a, acc.mime, normalizedLength, thumbLength)
                    && ChainedFrom(old(db.jobs), a + 1, a, now, db.jobs)
                    && db.nextId == ChainedNextId(old(db.jobs), a + 1, a, now))
              && (interruption == FailsBeforeFileRows ==>
                    && resp == ServerError && db.files == old(db.files) && db.jobs == old(db.jobs)
                    && db.nextId == a + 1)
              && (interruption == FailsBeforeJobs ==>
                    && resp == ServerError
                    && db.files == UploadedFiles(old(db.files), a, acc.mime, normalizedLength, thumbLength)
                    && db.jobs == old(db.jobs) && db.nextId == a + 1)
  {
    var v := Validate(req);
    if v.Failure? {
      return Rejected(v.error);
    }
    resp := StoreUpload(db, v.value, TitleOf(req.title), now, digestHex, normalizedLength, thumbLength, interruption);
  }
}

=== FILE: worker.dfy ===
/**
  The worker engine: backoff, the atomic claim, finishing and rescheduling a job, the two
  handlers with their "already done" guards, the dispatch of one job, startup recovery and
  one tick of the polling loop.
 */
module Worker {
  import opened Wrappers
  import opened Schema

  /** Failure messages are stored truncated to this many characters. */
  const ERROR_MAX_CHARS := 1000
  /** The deterministic part of the retry delay never exceeds five minutes. */
  const BACKOFF_CAP_SEC := 300
  const MS_PER_SEC := 1000

  const MISSING_USER_ID := "Missing userId in payload"
  const USER_NOT_FOUND := "User not found"
  const MISSING_ASSET_ID := "Missing assetId in payload"
  const ASSET_NOT_FOUND := "Asset not found"
  const ORIGINAL_MISSING := "Original file missing"
  const UNKNOWN_TYPE := "Unknown job type: "

  /** The random jitter of the backoff: the floor of ten times a number in [0, 1). */
  type Jitter = j: nat | j <= 9

  /* ------------------------ backoff and truncation ------------------------ */

  function Pow2(n: nat): (r: nat)
    ensures r >= 1
  {
    if n == 0 then 1 else 2 * Pow2(n - 1)
  }

  function Min(a: nat, b: nat): nat
  {
    if a <= b then a else b
  }

  /** Seconds to wait before the next attempt: the capped power of two plus the jitter. */
  function BackoffSec(attempts: nat, jitter: Jitter): (r: nat)
    ensures jitter < r <= BACKOFF_CAP_SEC + jitter
  {
    Min(BACKOFF_CAP_SEC, Pow2(attempts)) + jitter
  }

  /** The stored error: the first ERROR_MAX_CHARS characters of the message. */
  function Truncate(msg: string): (r: string)
    ensures |r| <= ERROR_MAX_CHARS
    ensures r <= msg
    ensures |msg| <= ERROR_MAX_CHARS ==> r == msg
    ensures |msg| > ERROR_MAX_CHARS ==> |r| == ERROR_MAX_CHARS
  {
    if |msg| <= ERROR_MAX_CHARS then msg else msg[..ERROR_MAX_CHARS]
  }

  /* ------------------------ the claim ------------------------ */

  /** A job the claim may pick at time `now`. */
  predicate Due(j: Job, now: Time)
  {
    j.status == Queued && j.scheduledAt <= now
  }

  /** The claim's order: scheduledAt ascending, then createdAt ascending. */
  predicate NoLaterThan(a: Job, b: Job)
  {
    a.scheduledAt < b.scheduledAt || (a.scheduledAt == b.scheduledAt && a.createdAt <= b.createdAt)
  }

  predicate HasDue(jobs: map<Id, Job>, now: Time)
  {
    exists id :: id in jobs && Due(jobs[id], now)
  }

  /** `c` is a first row among the due rows of `ids` in the claim's order. */
  predicate FirstDueIn(jobs: map<Id, Job>, now: Time, ids: set<Id>, c: Id)
  {
    && c in ids && c in jobs
    && Due(jobs[c], now)
    && forall k :: k in ids && k in jobs && Due(jobs[k], now) ==> NoLaterThan(jobs[c], jobs[k])
  }

  /** `id` is a first row of the claim's query: due, and no due row comes before it. */
  predicate IsNextCandidate(jobs: map<Id, Job>, now: Time, id: Id)
  {
    FirstDueIn(jobs, now, jobs.Keys, id)
  }

  /** Among the due rows of `ids` there is a first one in the claim's order. */
  lemma {:induction false} EarliestDueExists(jobs: map<Id, Job>, now: Time, ids: set<Id>)
    requires ids <= jobs.Keys
    requires exists id :: id in ids && Due(jobs[id], now)
    ensures exists c :: FirstDueIn(jobs, now, ids, c)
    decreases ids
  {
    var d :| d in ids && Due(jobs[d], now);
    var rest := ids - {d};
    if exists id :: id in rest && Due(jobs[id], now) {
      EarliestDueExists(jobs, now, rest);
      var c :| FirstDueIn(jobs, now, rest, c);
      if NoLaterThan(jobs[c], jobs[d]) {
        assert FirstDueIn(jobs, now, ids, c);
      } else {
        assert FirstDueIn(jobs, now, ids, d);
      }
    } else {
      assert FirstDueIn(jobs, now, ids, d);
    }
  }

  /** The query of the claim: one first due row, or none when no row is due. */
  method FindFirstDue(db: Db, now: Time) returns (c: Option<Id>)
    ensures c.None? <==> !HasDue(db.jobs, now)
    ensures c.Some? ==> IsNextCandidate(db.jobs, now, c.value)
  {
    if HasDue(db.jobs, now) {
      EarliestDueExists(db.jobs, now, db.jobs.Keys);
      var id :| FirstDueIn(db.jobs, now, db.jobs.Keys, id);
      c := Some(id);
    } else {
      c := None;
    }
  }

  /** The row after a successful claim. */
  function Claimed(j: Job, now: Time): Job
  {
    j.(status := Running, startedAt := Some(now), attempts := j.attempts + 1)
  }

  /** The conditional update of the claim: only a row that is still QUEUED is taken. */
  method ClaimIfQueued(db: Db, id: Id, now: Time) returns (claimed: Option<Job>)
    requires db.Valid()
    modifies db`jobs
    ensures db.Valid()
    ensures claimed.Some? <==> id in old(db.jobs) && old(db.jobs)[id].status == Queued
    ensures claimed.Some? ==> db.jobs == old(db.jobs)[id := Claimed(old(db.jobs)[id], now)]
                              && claimed.value == db.jobs[id]
    ensures claimed.Some? ==> claimed.value.status == Running
                              && claimed.value.attempts == old(db.jobs)[id].attempts + 1
                              && claimed.value.startedAt == Some(now)
    ensures claimed.None? ==> db.jobs == old(db.jobs)
  {
    if id in db.jobs && db.jobs[id].status == Queued {
      db.jobs := db.jobs[id := Claimed(db.jobs[id], now)];
      claimed := Some(db.jobs[id]);
    } else {
      claimed := None;
    }
  }

  /** One atomic claim: pick the first due row, take it if still QUEUED, else give up. */
  method ClaimNextJob(db: Db, now: Time) returns (claimed: Option<(Id, Job)>)
    requires db.Valid()
    modifies db`jobs
    ensures db.Valid()
    ensures claimed.None? <==> !HasDue(old(db.jobs), now)
    ensures claimed.None? ==> db.jobs == old(db.jobs)
    ensures claimed.Some? ==>
              && IsNextCandidate(old(db.jobs), now, claimed.value.0)
              && db.jobs == old(db.jobs)[claimed.value.0 := Claimed(old(db.jobs)[claimed.value.0], now)]
              && claimed.value.1 == db.jobs[claimed.value.0]
  {
    var c := FindFirstDue(db, now);
    if c.None? {
      return None;
    }
    var job := ClaimIfQueued(db, c.value, now);
    if job.None? {
      return None;
    }
    claimed := Some((c.value, job.value));
  }

  /* ------------------------ finishing ------------------------ */

  /** The row after its handler completed. */
  function Finished(j: Job, now: Time): Job
  {
    j.(status := Done, finishedAt := Some(now), error := None)
  }

  /** The row after its handler threw: retried with backoff, or failed for good. */
  function Rescheduled(j: Job, attempts: nat, err: string, maxAttempts: nat, now: Time, jitter: Jitter): Job
  {
    if attempts >= maxAttempts then
      j.(status := Failed, error := Some(Truncate(err)), finishedAt := Some(now))
    else
      j.(status := Queued, error := Some(Truncate(err)), finishedAt := None,
         scheduledAt := now + BackoffSec(attempts, jitter) * MS_PER_SEC)
  }

  method FinishOK(db: Db, id: Id, now: Time)
    requires db.Valid() && id in db.jobs
    modifies db`jobs
    ensures db.Valid()
    ensures db.jobs == old(db.jobs)[id := Finished(old(db.jobs)[id], now)]
    ensures db.jobs[id].status == Done && db.jobs[id].finishedAt == Some(now) && db.jobs[id].error == None
  {
    db.jobs := db.jobs[id := Finished(db.jobs[id], now)];
  }

  method Reschedule(db: Db, id: Id, attempts: nat, err: string, maxAttempts: nat, now: Time, jitter: Jitter)
    requires db.Valid() && id in db.jobs
    modifies db`jobs
    ensures db.Valid()
    ensures db.jobs == old(db.jobs)[id := Rescheduled(old(db.jobs)[id], attempts, err, maxAttempts, now, jitter)]
    ensures db.jobs[id].error == Some(Truncate(err))
    ensures attempts >= maxAttempts ==>
              && db.jobs[id].status == Failed
              && db.jobs[id].finishedAt == Some(now)
              && db.jobs[id].scheduledAt == old(db.jobs)[id].scheduledAt
    ensures attempts < maxAttempts ==>
              && db.jobs[id].status == Queued
              && db.jobs[id].finishedAt == None
              && db.jobs[id].scheduledAt == now + BackoffSec(attempts, jitter) * MS_PER_SEC
              && db.jobs[id].startedAt == old(db.jobs)[id].startedAt
  {
    db.jobs := db.jobs[id := Rescheduled(db.jobs[id], attempts, err, maxAttempts, now, jitter)];
  }

  /* ------------------------ handlers ------------------------ */

  /** A handler either returns normally or throws an error with a message. */
  datatype Outcome = Completed | Threw(message: string)

  /** What the outside world answers while one job is processed. */
  datatype External = External(
    claimAt: Time,            // the clock when the claim runs
    finishAt: Time,           // the clock when the job is finished or rescheduled
    jitter: Jitter,           // the random part of the backoff
    createKA: Result<string, string>, // createKnowledgeAsset: the new UAL, or the error it threw
    pin: Result<Pinned, string>)      // reading the original file and adding it to IPFS

  datatype Pinned = Pinned(cid: string, uri: string)

  datatype UserStep = UserStep(outcome: Outcome, users: map<Id, User>)

  /** processCreateUserKA on the user table: its guards, the early exit for a user who already
      has a UAL, and the publication whose result is the input `createKA`. */
  function CreateUserKAStep(users: map<Id, User>, subjectId: Option<Id>, createKA: Result<string, string>): (r: UserStep)
    ensures r.users.Keys == users.Keys
    ensures forall k :: k in users ==> r.users[k].email == users[k].email && r.users[k].role == users[k].role
    ensures r.outcome.Threw? ==> r.users == users
    ensures forall k :: k in users && Some(k) != subjectId ==> r.users[k] == users[k]
  {
    if subjectId.None? then UserStep(Threw(MISSING_USER_ID), users)
    else if subjectId.value !in users then UserStep(Threw(USER_NOT_FOUND), users)
    else
      var uid := subjectId.value;
      var u := users[uid];
      if Truthy(u.userUAL) then
        UserStep(Completed, users[uid := u.(kaPending := false, kaError := None)])
      else
        match createKA
        case Failure(msg) => UserStep(Threw(msg), users)
        case Success(ual) =>
          UserStep(Completed, users[uid := u.(userUAL := Some(ual), kaPending := false, kaError := None)])
  }

  datatype AssetStep = AssetStep(outcome: Outcome, assets: map<Id, Asset>, files: map<(Id, Variant), FileRow>)

  /** The CREDENTIALED file row after pinning: the upsert keyed by (asset, variant). */
  function CredentialedRow(files: map<(Id, Variant), FileRow>, a: Id, uri: string, mime: string): FileRow
  {
    if (a, Credentialed) in files then files[(a, Credentialed)].(url := uri) else FileRow(uri, mime, None)
  }

  /** processPinAssetToIPFS on the asset and file tables: its guards, the early exit for an
      asset that already has a CID, and the pinning whose result is the input `pin`. */
  function PinStep(assets: map<Id, Asset>, files: map<(Id, Variant), FileRow>, subjectId: Option<Id>,
                   pin: Result<Pinned, string>): (r: AssetStep)
    ensures r.assets.Keys == assets.Keys
    ensures r.outcome.Threw? ==> r.assets == assets && r.files == files
    ensures forall k :: k in assets && Some(k) != subjectId ==> r.assets[k] == assets[k]
    ensures forall key :: key in files && (key.1 != Credentialed || Some(key.0) != subjectId) ==>
              key in r.files && r.files[key] == files[key]
    ensures forall key :: key in r.files ==>
              key in files || (Some(key.0) == subjectId && key.0 in assets && key.1 == Credentialed)
  {
    if subjectId.None? then AssetStep(Threw(MISSING_ASSET_ID), assets, files)
    else
      var a := subjectId.value;
      if a !in assets then AssetStep(Threw(ASSET_NOT_FOUND), assets, files)
      else if Truthy(assets[a].ipfsCid) then AssetStep(Completed, assets, files)
      else if (a, Original) !in files || files[(a, Original)].url == "" then
        AssetStep(Threw(ORIGINAL_MISSING), assets, files)
      else
        match pin
        case Failure(msg) => AssetStep(Threw(msg), assets, files)
        case Success(p) =>
          AssetStep(Completed,
                    assets[a := assets[a].(ipfsCid := Some(p.cid), status := Published)],
                    files[(a, Credentialed) := CredentialedRow(files, a, p.uri, files[(a, Original)].mime)])
  }

  method ProcessCreateUserKA(db: Db, job: Job, createKA: Result<string, string>) returns (outcome: Outcome)
    requires db.Valid()
    modifies db`users
    ensures db.Valid()
    ensures UserStep(outcome, db.users) == CreateUserKAStep(old(db.users), job.subjectId, createKA)
  {
    if job.subjectId.None? {
      return Threw(MISSING_USER_ID);
    }
    var uid := job.subjectId.value;
    if uid !in db.users {
      return Threw(USER_NOT_FOUND);
    }
    var user := db.users[uid];
    if Truthy(user.userUAL) {
      db.users := db.users[uid := user.(kaPending := false, kaError := None)];
      return Completed;
    }
    match createKA {
      case Failure(msg) =>
        outcome := Threw(msg);
      case Success(ual) =>
        db.users := db.users[uid := user.(userUAL := Some(ual), kaPending := false, kaError := None)];
        outcome := Completed;
    }
  }

  method ProcessPinAssetToIPFS(db: Db, job: Job, pin: Result<Pinned, string>) returns (outcome: Outcome)
    requires db.Valid()
    modifies db`assets, db`files
    ensures db.Valid()
    ensures AssetStep(outcome, db.assets, db.files) == PinStep(old(db.assets), old(db.files), job.subjectId, pin)
  {
    if job.subjectId.None? {
      return Threw(MISSING_ASSET_ID);
    }
    var a := job.subjectId.value;
    if a !in db.assets {
      return Threw(ASSET_NOT_FOUND);
    }
    if Truthy(db.assets[a].ipfsCid) {
      return Completed;
    }
    if (a, Original) !in db.files || db.files[(a, Original)].url == "" {
      return Threw(ORIGINAL_MISSING);
    }
    match pin {
      case Failure(msg) =>
        outcome := Threw(msg);
      case Success(p) =>
        var mime := db.files[(a, Original)].mime;
        db.assets := db.assets[a := db.assets[a].(ipfsCid := Some(p.cid), status := Published)];
        db.files := db.files[(a, Credentialed) := CredentialedRow(db.files, a, p.uri, mime)];
        outcome := Completed;
    }
  }

  /* ------------------------ one job ------------------------ */

  /** The tables after the handler of a claimed job ran. */
  datatype Effects = Effects(outcome: Outcome, users: map<Id, User>, assets: map<Id, Asset>,
                             files: map<(Id, Variant), FileRow>)

  /** The dispatch on the job type: two handlers, and a thrown error for every other type. */
  function Dispatch(users: map<Id, User>, assets: map<Id, Asset>, files: map<(Id, Variant), FileRow>,
                    job: Job, ext: External): (r: Effects)
    ensures r.users.Keys == users.Keys && r.assets.Keys == assets.Keys
    ensures forall k :: k in users ==> r.users[k].email == users[k].email
    ensures job.jobType != CREATE_USER_KA && job.jobType != PIN_ASSET_TO_IPFS ==>
              r == Effects(Threw(UNKNOWN_TYPE + job.jobType), users, assets, files)
  {
    if job.jobType == CREATE_USER_KA then
      var s := CreateUserKAStep(users, job.subjectId, ext.createKA);
      Effects(s.outcome, s.users, assets, files)
    else if job.jobType == PIN_ASSET_TO_IPFS then
      var s := PinStep(assets, files, job.subjectId, ext.pin);
      Effects(s.outcome, users, s.assets, s.files)
    else
      Effects(Threw(UNKNOWN_TYPE + job.jobType), users, assets, files)
  }

  /** The row of a claimed job once its outcome is recorded; the counters are those of the
      claimed row, as processOne passes them. */
  function Settle(j: Job, outcome: Outcome, ext: External): (r: Job)
    ensures r.status != Running
    ensures r.attempts == j.attempts && r.maxAttempts == j.maxAttempts
    ensures r.status == Done <==> outcome.Completed?
    ensures r.jobType == j.jobType && r.subjectId == j.subjectId && r.parentJobId == j.parentJobId
  {
    match outcome
    case Completed => Finished(j, ext.finishAt)
    case Threw(msg) => Rescheduled(j, j.attempts, msg, j.maxAttempts, ext.finishAt, ext.jitter)
  }

  /** The try block of processOne for a claimed job: run its handler, then finishOK on
      completion or reschedule with the claimed row's counters on an error. */
  method RunClaimed(db: Db, jobId: Id, job: Job, ext: External) returns (outcome: Outcome)
    requires db.Valid() && jobId in db.jobs && db.jobs[jobId] == job
    modifies db`jobs, db`users, db`assets, db`files
    ensures db.Valid()
    ensures var fx := Dispatch(old(db.users), old(db.assets), old(db.files), job, ext);
            && outcome == fx.outcome
            && db.jobs == old(db.jobs)[jobId := Settle(job, fx.outcome, ext)]
            && db.users == fx.users && db.assets == fx.assets && db.files == fx.files
  {
    var attempt := job.attempts;
    if job.jobType == CREATE_USER_KA {
      outcome := ProcessCreateUserKA(db, job, ext.createKA);
    } else if job.jobType == PIN_ASSET_TO_IPFS {
      outcome := ProcessPinAssetToIPFS(db, job, ext.pin);
    } else {
      outcome := Threw(UNKNOWN_TYPE + job.jobType);
    }
    match outcome {
      case Completed =>
        FinishOK(db, jobId, ext.finishAt);
      case Threw(msg) =>
        Reschedule(db, jobId, attempt, msg, job.maxAttempts, ext.finishAt, ext.jitter);
    }
  }

  /** The four tables a job can change, as one value. */
  datatype Tables = Tables(jobs: map<Id, Job>, users: map<Id, User>, assets: map<Id, Asset>,
                           files: map<(Id, Variant), FileRow>)

  function Snapshot(db: Db): Tables
    reads db
  {
    Tables(db.jobs, db.users, db.assets, db.files)
  }

  /** The tables after processOne claimed the row `id`, ran its handler and settled it. */
  function ProcessedAt(t: Tables, id: Id, ext: External): Tables
    requires id in t.jobs
  {
    var claimed := Claimed(t.jobs[id], ext.claimAt);
    var fx := Dispatch(t.users, t.assets, t.files, claimed, ext);
    Tables(t.jobs[id := Settle(claimed, fx.outcome, ext)], fx.users, fx.assets, fx.files)
  }

  /** One successful processOne: some first due row is claimed, run and settled. */
  ghost predicate OneJobStep(before: Tables, after: Tables, ext: External)
  {
    exists id :: IsNextCandidate(before.jobs, ext.claimAt, id) && after == ProcessedAt(before, id, ext)
  }

  /** processOne: claim, dispatch, then finish or reschedule. Returns whether a job was claimed. */
  method ProcessOne(db: Db, ext: External) returns (worked: bool, ghost id: Id)
    requires db.Valid()
    modifies db`jobs, db`users, db`assets, db`files
    ensures db.Valid()
    ensures worked <==> HasDue(old(db.jobs), ext.claimAt)
    ensures !worked ==> Snapshot(db) == old(Snapshot(db))
    ensures worked ==> IsNextCandidate(old(db.jobs), ext.claimAt, id)
    ensures worked ==> Snapshot(db) == ProcessedAt(old(Snapshot(db)), id, ext)
  {
    id := 0;
    var c := ClaimNextJob(db, ext.claimAt);
    if c.None? {
      return false, id;
    }
    var jobId := c.value.0;
    id := jobId;
    var job := c.value.1;
    ghost var claimedJobs := db.jobs;
    var _ := RunClaimed(db, jobId, job, ext);
    assert claimedJobs[jobId := Settle(job, Dispatch(old(db.users), old(db.assets), old(db.files), job, ext).outcome, ext)]
        == old(db.jobs)[jobId := Settle(job, Dispatch(old(db.users), old(db.assets), old(db.files), job, ext).outcome, ext)];
    worked := true;
  }

  /** `after` differs from `before` in one row of the job table, which gained exactly one
      attempt and is not RUNNING; the keys are the same. */
  ghost predicate TouchesOneRow(before: Tables, after: Tables)
  {
    && after.jobs.Keys == before.jobs.Keys
    && exists id :: && id in before.jobs
                    && after.jobs[id].attempts == before.jobs[id].attempts + 1
                    && after.jobs[id].status != Running
                    && (forall k :: k in before.jobs && k != id ==> after.jobs[k] == before.jobs[k])
  }

  /** One processOne claims one row and consumes one of its attempts; no other row changes,
      and the claimed row does not stay RUNNING. */
  lemma JobStepTouchesOneRow(before: Tables, after: Tables, ext: External)
    requires OneJobStep(before, after, ext)
    ensures TouchesOneRow(before, after)
  {
    var id :| IsNextCandidate(before.jobs, ext.claimAt, id) && after == ProcessedAt(before, id, ext);
    assert after.jobs[id].attempts == before.jobs[id].attempts + 1;
  }

  /* ------------------------ recovery and the loop ------------------------ */

  /** A row after startup recovery: RUNNING goes back to QUEUED with no start time. */
  function Recover(j: Job): Job
  {
    if j.status == Running then j.(status := Queued, startedAt := None) else j
  }

  function RecoverAll(jobs: map<Id, Job>): map<Id, Job>
  {
    map id | id in jobs :: Recover(jobs[id])
  }

  function RunningIds(jobs: map<Id, Job>): set<Id>
  {
    set id | id in jobs && jobs[id].status == Running
  }

  /** The recovery step of bootstrap; returns the number of rows it changed. */
  method RecoverRunningJobs(db: Db) returns (count: nat)
    requires db.Valid()
    modifies db`jobs
    ensures db.Valid()
    ensures db.jobs == RecoverAll(old(db.jobs))
    ensures count == |RunningIds(old(db.jobs))|
  {
    count := |RunningIds(db.jobs)|;
    db.jobs := RecoverAll(db.jobs);
  }

  /** What a tick keeps from the tables `t0` it started with to the tables `t`: the same
      keys, no row newly RUNNING, and no attempt count lowered. */
  ghost predicate TickKeeps(t0: Tables, t: Tables)
  {
    && t.jobs.Keys == t0.jobs.Keys
    && (forall k :: k in t0.jobs && t0.jobs[k].status != Running ==> t.jobs[k].status != Running)
    && (forall k :: k in t0.jobs ==> t.jobs[k].attempts >= t0.jobs[k].attempts)
  }

  lemma TickKeepsStep(t0: Tables, t1: Tables, t2: Tables)
    requires TickKeeps(t0, t1) && TouchesOneRow(t1, t2)
    ensures TickKeeps(t0, t2)
  {
    var id :| && id in t1.jobs
              && t2.jobs[id].attempts == t1.jobs[id].attempts + 1
              && t2.jobs[id].status != Running
              && (forall k :: k in t1.jobs && k != id ==> t2.jobs[k] == t1.jobs[k]);
  }

  /** One turn of the tick's loop: processOne, seen as one step between table states. */
  method TickStep(db: Db, ext: External) returns (worked: bool)
    requires db.Valid()
    modifies db`jobs, db`users, db`assets, db`files
    ensures db.Valid()
    ensures worked <==> HasDue(old(db.jobs), ext.claimAt)
    ensures !worked ==> Snapshot(db) == old(Snapshot(db))
    ensures worked ==> OneJobStep(old(Snapshot(db)), Snapshot(db), ext)
  {
    ghost var id;
    worked, id := ProcessOne(db, ext);
  }

  /** `trace` is a run of successful processOne steps, the i-th seeing `ext(i)`. */
  ghost predicate IsRun(trace: seq<Tables>, ext: nat -> External)
  {
    forall i :: 0 <= i < |trace| - 1 ==> OneJobStep(trace[i], trace[i + 1], ext(i))
  }

  lemma ExtendRun(trace: seq<Tables>, ext: nat -> External, t: Tables)
    requires |trace| > 0 && IsRun(trace, ext)
    requires OneJobStep(trace[|trace| - 1], t, ext(|trace| - 1))
    ensures IsRun(trace + [t], ext)
  {
    var longer := trace + [t];
    forall i | 0 <= i < |longer| - 1
      ensures OneJobStep(longer[i], longer[i + 1], ext(i))
    {
      if i < |trace| - 1 {
        assert longer[i] == trace[i] && longer[i + 1] == trace[i + 1];
      } else {
        assert longer[i] == trace[|trace| - 1] && longer[i + 1] == t;
      }
    }
  }

  /** Every run keeps the keys, makes no row newly RUNNING and lowers no attempt count, from
      its first state to each later one. */
  lemma {:induction false} RunKeeps(trace: seq<Tables>, ext: nat -> External, n: nat)
    requires IsRun(trace, ext) && 0 < n <= |trace|
    ensures TickKeeps(trace[0], trace[n - 1])
  {
    if n > 1 {
      RunKeeps(trace, ext, n - 1);
      assert OneJobStep(trace[n - 2], trace[n - 1], ext(n - 2));
      JobStepTouchesOneRow(trace[n - 2], trace[n - 1], ext(n - 2));
      TickKeepsStep(trace[0], trace[n - 2], trace[n - 1]);
    }
  }

  /** One tick of main: up to `maxPerTick` jobs, stopping at the first empty claim. The k-th
      job of the tick sees the outside world `ext(k)`. The ghost `trace` holds the tables
      before the tick and after each job it ran. */
  method RunTick(db: Db, maxPerTick: nat, ext: nat -> External) returns (ran: nat, ghost trace: seq<Tables>)
    requires db.Valid()
    modifies db`jobs, db`users, db`assets, db`files
    ensures db.Valid()
    ensures ran <= maxPerTick
    ensures |trace| == ran + 1 && trace[0] == old(Snapshot(db)) && trace[ran] == Snapshot(db)
    ensures IsRun(trace, ext)
    ensures ran < maxPerTick ==> !HasDue(db.jobs, ext(ran).claimAt)
    ensures TickKeeps(old(Snapshot(db)), Snapshot(db))
  {
    ran := 0;
    trace := [Snapshot(db)];
    while ran < maxPerTick
      invariant db.Valid()
      invariant ran <= maxPerTick
      invariant |trace| == ran + 1 && trace[0] == old(Snapshot(db)) && trace[ran] == Snapshot(db)
      invariant IsRun(trace, ext)
    {
      var worked := TickStep(db, ext(ran));
      if !worked {
        break;
      }
      ExtendRun(trace, ext, Snapshot(db));
      trace := trace + [Snapshot(db)];
      ran := ran + 1;
    }
    RunKeeps(trace, ext, |trace|);
  }
}

=== FILE: worker_props.dfy ===
/**
  Properties of the worker engine that relate several steps: the shape of the backoff,
  convergence of an always-failing job to FAILED, recovery, the handlers' early exits and
  the absence of any parent/child gate.
 */
module WorkerProps {
  import opened Wrappers
  import opened Schema
  import opened Worker

  /* ------------------------ backoff ------------------------ */

  lemma {:induction false} Pow2Monotone(a: nat, b: nat)
    requires a <= b
    ensures Pow2(a) <= Pow2(b)
    decreases b - a
  {
    if a < b {
      Pow2Monotone(a, b - 1);
    }
  }

  /** The delay never shrinks as the attempt count grows (for the same jitter). */
  lemma BackoffMonotone(a: nat, b: nat, jitter: Jitter)
    requires a <= b
    ensures BackoffSec(a, jitter) <= BackoffSec(b, jitter)
  {
    Pow2Monotone(a, b);
  }

  /** From the ninth attempt on the power of two is capped: the delay is 300 s plus jitter. */
  lemma BackoffSaturates(a: nat, jitter: Jitter)
    requires a >= 9
    ensures BackoffSec(a, jitter) == BACKOFF_CAP_SEC + jitter
    ensures 300 <= BackoffSec(a, jitter) <= 309
  {
    Pow2Monotone(9, a);
    assert Pow2(9) == 512;
  }

  /** Below the cap the delay is exactly 2^attempts seconds plus jitter. */
  lemma BackoffUncapped(a: nat, jitter: Jitter)
    requires a <= 8
    ensures BackoffSec(a, jitter) == Pow2(a) + jitter
  {
    Pow2Monotone(a, 8);
    assert Pow2(8) == 256;
  }

  /* ------------------------ retries ------------------------ */

  /** One claim of `j` followed by a failure of its handler with message `msg`. */
  function FailCycle(j: Job, e: External, msg: string): Job
  {
    Settle(Claimed(j, e.claimAt), Threw(msg), e)
  }

  /** Repeated claim/fail cycles, one per element of `es`, while the job is still QUEUED. */
  function FailCycles(j: Job, es: seq<External>, msg: string): Job
    decreases |es|
  {
    if es == [] || j.status != Queued then j else FailCycles(FailCycle(j, es[0], msg), es[1..], msg)
  }

  /** A job whose handler always fails stays QUEUED, one attempt more per cycle, until the
      cycle in which attempts reaches maxAttempts; that cycle leaves it FAILED. */
  lemma {:induction false} AlwaysFailingJobExhaustsBudget(j: Job, es: seq<External>, msg: string)
    requires j.status == Queued
    requires j.attempts + |es| <= j.maxAttempts
    ensures FailCycles(j, es, msg).attempts == j.attempts + |es|
    ensures FailCycles(j, es, msg).maxAttempts == j.maxAttempts
    ensures j.attempts + |es| < j.maxAttempts ==> FailCycles(j, es, msg).status == Queued
    ensures |es| > 0 && j.attempts + |es| == j.maxAttempts ==>
              && FailCycles(j, es, msg).status == Failed
              && FailCycles(j, es, msg).finishedAt == Some(es[|es| - 1].finishAt)
              && FailCycles(j, es, msg).error == Some(Truncate(msg))
    decreases |es|
  {
    if es != [] {
      var next := FailCycle(j, es[0], msg);
      if |es| == 1 {
        assert es[1..] == [];
        if j.attempts + 1 < j.maxAttempts {
          assert next.status == Queued;
        }
      } else {
        assert next.status == Queued && next.attempts == j.attempts + 1;
        AlwaysFailingJobExhaustsBudget(next, es[1..], msg);
        assert es[1..][|es[1..]| - 1] == es[|es| - 1];
      }
    }
  }

  /** A fresh job with budget m and an always-failing handler is FAILED after exactly m
      cycles, with attempts = m; after fewer cycles it is still QUEUED. */
  lemma FreshJobFailsAfterMaxAttempts(j: Job, es: seq<External>, msg: string)
    requires j.status == Queued && j.attempts == 0
    requires 0 < |es| <= j.maxAttempts
    ensures |es| < j.maxAttempts ==> FailCycles(j, es, msg).status == Queued
    ensures |es| == j.maxAttempts ==>
              && FailCycles(j, es, msg).status == Failed
              && FailCycles(j, es, msg).attempts == j.maxAttempts
              && FailCycles(j, es, msg).error == Some(Truncate(msg))
  {
    AlwaysFailingJobExhaustsBudget(j, es, msg);
  }

  /** Every type without a case in the dispatch, PublishAssetKA among them, goes down the
      failure path whatever the tables hold, so processing it is always a fail cycle. */
  lemma UnhandledTypeAlwaysFails(users: map<Id, User>, assets: map<Id, Asset>,
                                 files: map<(Id, Variant), FileRow>, j: Job, e: External)
    requires j.jobType != CREATE_USER_KA && j.jobType != PIN_ASSET_TO_IPFS
    ensures var fx := Dispatch(users, assets, files, Claimed(j, e.claimAt), e);
            && fx.outcome == Threw(UNKNOWN_TYPE + j.jobType)
            && fx.users == users && fx.assets == assets && fx.files == files
            && Settle(Claimed(j, e.claimAt), fx.outcome, e) == FailCycle(j, e, UNKNOWN_TYPE + j.jobType)
  {
  }

  /** A handler that completes on the first claim leaves the job DONE with one attempt. */
  lemma FirstAttemptSuccess(j: Job, e: External)
    requires j.status == Queued && j.attempts == 0
    ensures Settle(Claimed(j, e.claimAt), Completed, e).status == Done
    ensures Settle(Claimed(j, e.claimAt), Completed, e).attempts == 1
    ensures Settle(Claimed(j, e.claimAt), Completed, e).finishedAt == Some(e.finishAt)
    ensures Settle(Claimed(j, e.claimAt), Completed, e).error == None
  {
  }

  /** A retried job keeps the start time of the attempt that failed. */
  lemma RetryKeepsStartedAt(j: Job, e: External, msg: string)
    requires j.attempts + 1 < j.maxAttempts
    ensures FailCycle(j, e, msg).status == Queued
    ensures FailCycle(j, e, msg).startedAt == Some(e.claimAt)
    ensures FailCycle(j, e, msg).finishedAt == None
    ensures FailCycle(j, e, msg).scheduledAt == e.finishAt + BackoffSec(j.attempts + 1, e.jitter) * MS_PER_SEC
  {
  }

  /* ------------------------ recovery ------------------------ */

  /** Recovery turns RUNNING into QUEUED without a start time and touches nothing else. */
  lemma RecoverAllEffect(jobs: map<Id, Job>)
    ensures RecoverAll(jobs).Keys == jobs.Keys
    ensures forall id :: id in jobs && jobs[id].status == Running ==>
              RecoverAll(jobs)[id] == jobs[id].(status := Queued, startedAt := None)
    ensures forall id :: id in jobs && jobs[id].status != Running ==> RecoverAll(jobs)[id] == jobs[id]
    ensures forall id :: id in jobs ==>
              RecoverAll(jobs)[id].attempts == jobs[id].attempts
              && RecoverAll(jobs)[id].maxAttempts == jobs[id].maxAttempts
    ensures RunningIds(RecoverAll(jobs)) == {}
  {
  }

  /** Running recovery twice has the effect of running it once. */
  lemma RecoverAllIdempotent(jobs: map<Id, Job>)
    ensures RecoverAll(RecoverAll(jobs)) == RecoverAll(jobs)
  {
    var once := RecoverAll(jobs);
    assert forall id :: id in once ==> once[id].status != Running;
  }

  /** With no RUNNING job recovery is a no-op. */
  lemma RecoverAllNoRunningIsNoop(jobs: map<Id, Job>)
    requires RunningIds(jobs) == {}
    ensures RecoverAll(jobs) == jobs
  {
    forall id | id in jobs
      ensures RecoverAll(jobs)[id] == jobs[id]
    {
      assert id !in RunningIds(jobs);
    }
  }

  /* ------------------------ the handlers' early exits ------------------------ */

  /** Once CreateUserKA has completed for a user with a non-empty UAL, running it again exits
      early: it completes without calling out and without changing any user, whatever the
      outside world answers. An empty UAL is falsy, so it does not (EmptyUalRepublishes). */
  lemma CreateUserKAIdempotent(users: map<Id, User>, subjectId: Option<Id>,
                               first: Result<string, string>, second: Result<string, string>)
    requires CreateUserKAStep(users, subjectId, first).outcome == Completed
    requires first.Success? ==> first.value != ""
    ensures var after := CreateUserKAStep(users, subjectId, first).users;
            CreateUserKAStep(after, subjectId, second) == UserStep(Completed, after)
  {
    var after := CreateUserKAStep(users, subjectId, first).users;
    var uid := subjectId.value;
    assert Truthy(after[uid].userUAL);
    assert after[uid := after[uid].(kaPending := false, kaError := None)] == after;
  }

  /** Once an asset is pinned with a non-empty CID, PinAssetToIPFS exits early and changes
      nothing. An empty CID is falsy, so it does not (EmptyCidRepins). */
  lemma PinIdempotent(assets: map<Id, Asset>, files: map<(Id, Variant), FileRow>, subjectId: Option<Id>,
                      first: Result<Pinned, string>, second: Result<Pinned, string>)
    requires PinStep(assets, files, subjectId, first).outcome == Completed
    requires first.Success? ==> first.value.cid != ""
    ensures var s := PinStep(assets, files, subjectId, first);
            PinStep(s.assets, s.files, subjectId, second) == AssetStep(Completed, s.assets, s.files)
  {
  }

  /** A publication that answers an empty UAL completes the job, but the stored UAL is falsy:
      the next run does not exit early, publishes again and answers as that publication does. */
  lemma EmptyUalRepublishes(users: map<Id, User>, uid: Id, second: Result<string, string>)
    requires uid in users && !Truthy(users[uid].userUAL)
    ensures var first := CreateUserKAStep(users, Some(uid), Success(""));
            var again := CreateUserKAStep(first.users, Some(uid), second);
            && first.outcome == Completed && first.users[uid].userUAL == Some("")
            && (second.Failure? ==> again.outcome == Threw(second.error) && again.users == first.users)
            && (second.Success? ==> again.outcome == Completed && again.users[uid].userUAL == Some(second.value))
  {
  }

  /** A pin that answers an empty CID completes the job and marks the asset PUBLISHED, but the
      stored CID is falsy: the next run pins again and answers as that pin does. */
  lemma EmptyCidRepins(assets: map<Id, Asset>, files: map<(Id, Variant), FileRow>, a: Id, uri: string,
                       second: Result<Pinned, string>)
    requires a in assets && !Truthy(assets[a].ipfsCid)
    requires (a, Original) in files && files[(a, Original)].url != ""
    ensures var first := PinStep(assets, files, Some(a), Success(Pinned("", uri)));
            var again := PinStep(first.assets, first.files, Some(a), second);
            && first.outcome == Completed && first.assets[a].ipfsCid == Some("")
            && (second.Failure? ==> again.outcome == Threw(second.error) && again.assets == first.assets)
            && (second.Success? ==> again.outcome == Completed && again.assets[a].ipfsCid == Some(second.value.cid))
  {
  }

  /** A CreateUserKA job that throws, on any attempt including the last, leaves the user's
      kaPending flag as it was: only completion clears it. */
  lemma FailedCreateUserKAKeepsPending(users: map<Id, User>, assets: map<Id, Asset>,
                                       files: map<(Id, Variant), FileRow>, j: Job, e: External, uid: Id)
    requires j.jobType == CREATE_USER_KA && uid in users
    requires Dispatch(users, assets, files, j, e).outcome.Threw?
    ensures Dispatch(users, assets, files, j, e).users[uid].kaPending == users[uid].kaPending
  {
  }

  /** What a CreateUserKA run answers and writes: a missing subject or user throws its
      message; the run completes exactly when the user exists and already has a UAL or the
      publication succeeds; a completed run leaves the user not pending and without error,
      with the UAL it had or the one just published. */
  lemma CreateUserKAStepEffect(users: map<Id, User>, subjectId: Option<Id>, createKA: Result<string, string>)
    ensures var r := CreateUserKAStep(users, subjectId, createKA);
            && (subjectId.None? ==> r.outcome == Threw(MISSING_USER_ID))
            && (subjectId.Some? && subjectId.value !in users ==> r.outcome == Threw(USER_NOT_FOUND))
            && (r.outcome.Completed? <==>
                  && subjectId.Some? && subjectId.value in users
                  && (Truthy(users[subjectId.value].userUAL) || createKA.Success?))
            && (r.outcome.Completed? ==>
                  var before, after := users[subjectId.value], r.users[subjectId.value];
                  && !after.kaPending && after.kaError.None? && after.kaQueuedAt == before.kaQueuedAt
                  && (Truthy(before.userUAL) ==> after.userUAL == before.userUAL)
                  && (!Truthy(before.userUAL) ==> after.userUAL == Some(createKA.value)))
  {
  }

  /** What a PinAssetToIPFS run answers and writes: a missing subject or asset throws its
      message; an asset with a CID completes with no change; otherwise the run completes
      exactly when the original has a URL and the pin succeeds, and then the asset has the
      CID and is PUBLISHED with every other column kept, and the CREDENTIALED row has the
      uri, created with the original's mime when there was none. */
  lemma PinStepEffect(assets: map<Id, Asset>, files: map<(Id, Variant), FileRow>, subjectId: Option<Id>,
                      pin: Result<Pinned, string>)
    ensures var r := PinStep(assets, files, subjectId, pin);
            && (subjectId.None? ==> r.outcome == Threw(MISSING_ASSET_ID))
            && (subjectId.Some? && subjectId.value !in assets ==> r.outcome == Threw(ASSET_NOT_FOUND))
            && (r.outcome.Completed? <==>
                  && subjectId.Some? && subjectId.value in assets
                  && (|| Truthy(assets[subjectId.value].ipfsCid)
                      || (&& (subjectId.value, Original) in files
                          && files[(subjectId.value, Original)].url != ""
                          && pin.Success?)))
            && (subjectId.Some? && subjectId.value in assets && Truthy(assets[subjectId.value].ipfsCid) ==>
                  r == AssetStep(Completed, assets, files))
            && (r.outcome.Completed? && !Truthy(assets[subjectId.value].ipfsCid) ==>
                  var a := subjectId.value;
                  var before, after := assets[a], r.assets[a];
                  var cred := (a, Credentialed);
                  && after.ipfsCid == Some(pin.value.cid) && after.status == Published
                  && after.(ipfsCid := before.ipfsCid, status := before.status) == before
                  && cred in r.files && r.files[cred].url == pin.value.uri
                  && (cred in files ==> r.files[cred].(url := files[cred].url) == files[cred])
                  && (cred !in files ==> r.files[cred] == FileRow(pin.value.uri, files[(a, Original)].mime, None)))
  {
  }

  /* ------------------------ no dependency gate ------------------------ */

  /** The claim never reads parentJobId: changing any row's parent changes no claim decision. */
  lemma ClaimIgnoresParent(jobs: map<Id, Job>, now: Time, id: Id, parent: Option<Id>, c: Id)
    requires id in jobs
    ensures var moved := jobs[id := jobs[id].(parentJobId := parent)];
            IsNextCandidate(moved, now, c) <==> IsNextCandidate(jobs, now, c)
  {
    var moved := jobs[id := jobs[id].(parentJobId := parent)];
    assert moved.Keys == jobs.Keys;
    assert forall k :: k in jobs ==> Due(moved[k], now) == Due(jobs[k], now);
    assert forall k, l :: k in jobs && l in jobs ==> NoLaterThan(moved[k], moved[l]) == NoLaterThan(jobs[k], jobs[l]);
  }

  /** Nor does the dispatch: a job runs the same way whatever its parent and the parent's state. */
  lemma DispatchIgnoresParent(users: map<Id, User>, assets: map<Id, Asset>,
                              files: map<(Id, Variant), FileRow>, j: Job, e: External, parent: Option<Id>)
    ensures Dispatch(users, assets, files, j.(parentJobId := parent), e) == Dispatch(users, assets, files, j, e)
  {
  }
}

=== FILE: wrappers.dfy ===
/** Option and Result, the two failure-carrying datatypes the model uses. */
module Wrappers {

  /** A value that may be absent: a nullable column, an optional header or field. */
  datatype Option<T> = None | Some(value: T)

  /** The outcome of a call that may throw: its value, or the error it raised. */
  datatype Result<T, E> = Success(value: T) | Failure(error: E)
}
